=== FILE: README.md ===
# PurpleReaction trial timing, in Dafny

PurpleReaction is a full-screen reaction-time tester for Windows. A run is
a fixed number of trials. Each trial starts on a dark screen and waits for
a random delay drawn from a configured range. It then turns the screen
white and times the first key or mouse-button press against that stimulus.

This project models the core of `src/main.cpp`, which covers:

- the trial state machine of `RunTestSession`;
- the press latch `RecordRawInputPress`, fed by the raw-input window procedure;
- the message pump, with its quit and cancel flags;
- the per-run reset;
- the result aggregation (`PrintResults`, `ComputeAverageReactionMs`, the JSON and CSV exports);
- the configuration checks (`ParseArgs`, the settings page, the bounded integer parsers).

The loop body is a pure step function over one *pass*. A pass carries the
window messages pumped at its start, the counter reading `now`, the delay
the random distribution hands out, and the counter readings around the
blocking present. A run is the fold of that step over a finite trace of
passes. The performance counter is assumed monotonic. That assumption is
the `TraceWellFormed` predicate. Every reading of a pass (its message
stamps, `now` and the two present readings) lies at or after the previous
pass's last reading. Within a pass, `now` is at or after every message
stamp, and the present readings follow `now` in order. The message stamps
of one pump are not ordered among themselves.

Modules, one per file:

- `Numbers` (`numbers.dfy`): `Option`, an IEEE-style `Double` (finite, infinite or NaN, with IEEE comparisons), the `strtol`-style bounded integer parser.
- `Clock` (`clock.dfy`): the stimulus midpoint with C truncation, the elapsed-delay test, and the two-tier wait.
- `Trial` (`trial.dfy`): session state, press latch, message decoding, pump, reset.
- `SessionLoop` (`session.dfy`): the phase switch, one loop pass, runs over traces, the run invariant, and the loop as a method.
- `Results` (`results.dfy`): counts, average, console report, JSON and CSV documents, reading exports back.
- `Config` (`config.dfy`): settings, command-line options, settings-page edits.
- `Scenarios` (`scenarios.dfy`): concrete runs worked through the model.

Reactions are kept as counter-tick deltas (`reactionTicks`). The program
converts each delta to milliseconds before storing it. The model computes
the average of the tick deltas. Since a delta of `t` ticks is
`t * 1000 / frequency` milliseconds, the program's millisecond average is
the model's tick average times `1000 / frequency`.

One might expect a run to hold exactly `trialCount` results if and only if
it completed. The loop, however, checks quit and Esc *before* it looks at
the phase. So a cancel that arrives in the pass after the last trial
resolved ends the run as aborted, with all `trialCount` results. The
model follows the code: only the direction "completed implies
`trialCount` results" is proved, and `Scenarios.AbortAfterLastTrial`
exhibits the other case.

## Model

| member | source | states |
|---|---|---|
| Trial.RecordPress | src/main.cpp:129-143 | A press changes the state exactly when nothing is latched yet and the phase is one of the two waiting phases. It then latches the given counter reading and marks a false start exactly when the stimulus is not yet shown. No other field changes. |
| Trial.FirstPressWins | src/main.cpp:129-143 | Once a press is latched, later presses in the same trial change nothing. |
| Trial.Decode | src/main.cpp:151-208 | Esc key-down cancels. Any other key-down, and any of the five button-down flags, is a press. Key-up and other mouse activity are ignored. Close and destroy are quit signals. |
| Trial.Dispatch | src/main.cpp:151-208 | One message changes only the latch and the two flags. Quit is raised iff it was set or the message is a close; cancel likewise for Esc key-down. A press latches iff nothing was latched and the phase accepts presses; the new latch carries the message's reading and is a false start iff the stimulus is not yet shown. Without a latch the stale stamp and flag stay as they were. |
| Trial.Pump | src/main.cpp:437-449 | Pumping changes only the latch, the cancel flag and the quit flag. Quit is set iff it was set or a close message arrived; cancel likewise for an Esc key-down. A press is latched iff one was, or the phase accepts presses and some press message arrived. A latch already held keeps its stamp, and a new latch is a false start iff the stimulus is not yet shown. Without a latch the stale stamp and flag stay as they were. |
| Trial.PumpStampWithin | src/main.cpp:129-143 | When every message of a pump carries a reading in [lo, hi], a press latched by that pump is stamped within [lo, hi]. |
| Trial.PumpLatchesFirstPress | src/main.cpp:129-143 | A latch set by a pump carries the reading of the first press message of the batch: some message is a press, none before it is, and the stamp is its reading. |
| Trial.ResetSessionState | src/main.cpp:993-1006 | A reset empties the results, zeroes the index, returns to BeginTrial, clears the latch and the cancel flag, and zeroes the three timestamps and the scheduled delay. It keeps the quit flag. |
| Trial.ResetForgetsPreviousRun | src/main.cpp:993-1006 | Two states that agree on the quit flag reset to the same state. |
| Clock.HalveTowardZero | src/main.cpp:1087 | Signed halving truncates toward zero: the remainder has the sign of the dividend. |
| Clock.StimulusTimestamp | src/main.cpp:1082-1088 | The stimulus stamp is within half a tick of the midpoint of the present window, and never leaves an ordered window. |
| Clock.CollapsedWindow | src/main.cpp:1087 | A zero-width window pins the stimulus to that reading. |
| Clock.DelayElapsedInTicks | src/main.cpp:1079-1080 | The elapsed-seconds test holds iff the counter advanced by at least delay × frequency ticks. |
| Clock.WaitInTicks | src/main.cpp:1079-1100 | In ticks: the loop sleeps for a millisecond iff the counter has advanced by less than (delay − 0.003 s) × frequency since the trial start, and only yields otherwise. |
| Clock.YieldUntilDeadline | src/main.cpp:1079-1100 | The two tiers come in order: if a wait only yields at one reading, it only yields at every later reading for the same deadline. |
| SessionLoop.Resolve | src/main.cpp:1074-1075 | Resolving appends exactly the given result and advances the index by one. The phase becomes Finished iff the index reaches the trial count, else BeginTrial. |
| SessionLoop.PhaseStep | src/main.cpp:1042-1133 | Only Finished ends the loop, and it ends it as Completed. BeginTrial installs the drawn delay and the start reading, clears latch and stamps, moves to the stimulus wait, shows dark and changes nothing else. A latched false start is resolved (appended with no reaction, index advanced, then Finished or BeginTrial) without showing the stimulus. Otherwise the stimulus wait either shows the stimulus or waits. It shows it iff the delay elapsed, and then changes only the stamp, set to the window midpoint, and the phase, set to the response wait. A latched response is resolved the same way with its tick delta from the stimulus. A response wait with nothing latched only yields. The stimulus wait sleeps iff more than 3 ms remain. Every wait leaves the state as it was. |
| SessionLoop.YieldNeverReturnsToSleep | src/main.cpp:1062-1102 | Once a pass of a stimulus wait only yields, no later pass of the same trial (same start and delay, counter not gone back, whatever the pumps latched) sleeps again. |
| SessionLoop.Step | src/main.cpp:1026-1040 | A pass ends as QuitRequested iff the pump leaves quit set. It ends as Aborted iff the pump leaves cancel set and quit clear. It completes only from Finished, and a pass that stops hands back exactly the pumped state. With quit and cancel clear after the pump, the pass is the phase step on the pumped state. A pass that ends the run leaves results and index alone; one that continues appends at most one result and advances the index with it. |
| SessionLoop.Run | src/main.cpp:1026-1134 | Over any trace, the results only grow by appending, and the index advances exactly with them. |
| SessionLoop.ResetEstablishesInv | src/main.cpp:993-1006 | A fresh run satisfies the run invariant. |
| SessionLoop.StepKeepsInv | src/main.cpp:1026-1134 | Under a monotonic counter, every pass keeps the run invariant. The invariant says: index = number of results ≤ trial count; Finished iff all trials are recorded; a latch in the stimulus wait is a false start; a latched response is stamped no earlier than its stimulus; every delay and result is sound. A completing pass holds exactly trialCount results. |
| SessionLoop.RunKeepsInv | src/main.cpp:1026-1134 | The invariant holds after any well-formed trace, and a completed run holds exactly trialCount results. |
| SessionLoop.SessionGuarantees | src/main.cpp:1008-1134 | A run never records more than the configured number of trials, and records all of them when it completes. Every delay comes from the configured range, a false start stores no reaction, and every valid reaction is non-negative. |
| SessionLoop.QuitIsSticky | src/main.cpp:993-1033 | A quit raised before a run ends that run at its first pass with no results. |
| SessionLoop.RunLoop | src/main.cpp:1008-1134 | The imperative loop returns the outcome and results of the fold. Its results number at most trialCount, exactly trialCount when completed, and no valid reaction is negative. |
| Results.CountsPartition | src/main.cpp:455-475 | Every trial is counted exactly once, as valid or as a false start. |
| Results.CountTrials | src/main.cpp:455-475 | The counting loop computes both counts, and they sum to the number of trials. |
| Results.SumValidReactions | src/main.cpp:484-493 | The accumulation loop computes the sum and the number of the valid reactions. |
| Results.ComputeAverageReaction | src/main.cpp:482-499 | The loop returns 0.0 without valid trials. Otherwise it returns the value that, times the valid count, gives the sum of the valid reactions. |
| Results.AverageWithinBounds | src/main.cpp:482-499 | With some valid trial, the average lies between any lower and upper bound of the valid reactions. |
| Results.SumWithinBounds | src/main.cpp:482-499 | Bounds on each valid reaction bound the sum of valid reactions by the valid count times each bound. |
| Results.AverageIgnoresFalseStarts | src/main.cpp:482-499 | Changing the stored reaction of false starts changes neither the counts, nor the sum, nor the average. |
| Results.PrintResults | src/main.cpp:451-480 | One numbered line per trial, marked as a false start iff it was one and carrying its reaction otherwise. The average line appears iff some trial is valid and then holds the average. The two counts are the valid and false-start counts and sum to the number of trials. |
| Results.ExportTrials | src/main.cpp:538-550 | One entry per trial, numbered from 1, with its delay and false-start flag. The reaction is empty iff it was a false start, and otherwise the stored reaction. |
| Results.ExportJson | src/main.cpp:563-640 | Nothing is written iff there are no results. Otherwise the document carries the trial, valid and false-start counts (the last two sum to the first), a null average iff no trial is valid (else the average), and the entries. |
| Results.CsvAverageAsWrittenHidesMissingAverage | src/main.cpp:551 | The CSV trailer as written is 0.0 both for a run with no valid trial and for a run whose only valid reaction is 0 ticks. |
| Results.CsvAverage | src/main.cpp:551 | The corrected trailer average is empty iff no trial is valid, and otherwise equals the written one. |
| Results.ExportCsv | src/main.cpp:521-561 | Nothing is written iff there are no results. Otherwise the file holds the entries and the corrected average cell. |
| Results.ExportTrialsRoundTrip | src/main.cpp:538-550 | Reading the entries back reproduces the results exactly, given the 0 stored for false starts. |
| Results.JsonRecount | src/main.cpp:578-605 | Recounting the entries of any JSON document gives its counts and its average. |
| Results.CsvRecount | src/main.cpp:538-551 | Recounting the rows of a CSV file gives the run's counts and the file's average cell. |
| Numbers.ComparisonsWithNaN | src/main.cpp:851 | A NaN compares neither at-most nor below anything, while any two non-NaN values are ordered. |
| Numbers.ParseBoundedInt | src/main.cpp:713-733 | An accepted text is white space, an optional `+` or `-` and at least one digit, with nothing after the digits. The value is the signed value of those digits and lies in [1, 1000000]. |
| Numbers.ParseSignedDigits | src/main.cpp:713-733 | After the white space, an accepted text is an optional sign and at least one digit, nothing else, with their signed value in [1, 1000000]. |
| Numbers.SkipLeadingSpaces | src/main.cpp:721 | White space in front of a non-space is skipped entirely. |
| Numbers.SignedDigitsAccepted | src/main.cpp:713-733 | Conversely, an optional sign and digits are accepted with their signed value iff it lies in [1, 1000000]. |
| Numbers.GrammarTextAccepted | src/main.cpp:713-733 | Conversely, any white space, an optional sign and digits are accepted with their signed value iff it lies in [1, 1000000]. |
| Numbers.ParseDecimal | src/main.cpp:691-711 | Round trip: the decimal text of N parses to N for every N in [1, 1000000] and is refused for every other N. |
| Numbers.ParseUnsignedDigits | src/main.cpp:713-733 | A bare digit string is accepted iff its value is in range, and then yields that value. |
| Numbers.ParseNegative | src/main.cpp:713-733 | Every negative number, and minus zero, is refused. |
| Numbers.LeadingSpaceIgnored | src/main.cpp:713-733 | Leading white space does not change the outcome. |
| Config.RunConfigOf | src/main.cpp:851-856 | Settings give run parameters iff they are valid and the counter frequency is positive, and the parameters then satisfy everything a run relies on. |
| Config.DelayChecksAgreeOnFinite | src/main.cpp:851 | On ordinary numbers, the program's final delay check accepts exactly `0 < min < max`. |
| Config.NonFiniteDelayPassesAsWritten | src/main.cpp:851 | A NaN minimum and an infinite maximum pass the check as written, but do not form a usable range. |
| Config.ParseArgsAsWritten | src/main.cpp:761-857 | The option parser with the final check as written. The settings are those the loop left. A loop that runs to the end is accepted iff the written comparison does not reject its delays. Whatever it does not accept gets the same answer as the corrected parser. |
| Config.ParseArgsAgreeOnFinite | src/main.cpp:847-856 | The corrected parser accepts a subset of what the written one accepts. Where the written one accepts, the corrected one does iff both delays are ordinary numbers. |
| Config.NaNMinDelayAcceptedAsWritten | src/main.cpp:777-856 | `--min-delay` followed by a text read as NaN is accepted as written, with that NaN installed, and refused by the corrected parser. |
| Config.ApplyValue | src/main.cpp:777-832 | `--min-delay` and `--max-delay` are taken iff the text parses and then store that value in their own field. `--trials` is taken iff the text parses to a count in range and then stores it. Otherwise the settings are untouched. `--json-out` and `--csv-out` store their text in their own field first and are taken iff it is non-empty. |
| Config.ScanOptions | src/main.cpp:773-845 | The option loop keeps a valid trial count valid. It stops with help only if some argument is `--help` or `-h`, and refuses an unknown first argument with the settings untouched. |
| Config.ScanAfterPrefix | src/main.cpp:773-845 | Scanning `p + rest`, where `p` scans to the end, is scanning `rest` from the settings `p` left. |
| Config.UnknownOptionIsErrorAnywhere | src/main.cpp:838-842 | An unknown argument where an option is expected is an error, whatever options come before it. |
| Config.HelpIsExitAnywhere | src/main.cpp:833-849 | `--help` or `-h` where an option is expected requests exit, whatever options come before it and whatever follows. |
| Config.MissingValueIsErrorAnywhere | src/main.cpp:777-832 | A value-taking option as the last argument is an error, whatever options come before it. |
| Config.AcceptedValueAnywhere | src/main.cpp:777-832 | After a prefix that runs to the end, a value its option takes lets the loop carry on from the settings that value stored, whatever follows. |
| Config.DelayRangeLineAccepted | src/main.cpp:756 | The usage line `--min-delay 1 --max-delay 3` stores both delays and is accepted by the corrected and the written final check. |
| Config.RefusedValueIsErrorAnywhere | src/main.cpp:777-832 | A value that its option refuses, given the settings the options before it left, is an error wherever it stands and whatever follows. |
| Config.ParseArgs | src/main.cpp:761-857 | The settings are those the loop left. Exit is requested iff the loop stopped at help, a refusal in the loop is an error, and a loop that runs to the end is accepted iff its delays form a usable range. Accepted settings are valid, and an unknown first argument is an error. |
| Config.ScanOneOption | src/main.cpp:773-845 | A lone value-taking option with its value ends the loop with the settings `ApplyValue` gives when the value is taken, and is refused with the settings it leaves otherwise. |
| Config.NoArgumentsGiveDefaults | src/main.cpp:761-857 | No arguments give the defaults of 10 trials and a 2 to 5 second range. |
| Config.HelpFirstRequestsExit | src/main.cpp:833-849 | `--help` or `-h` first requests exit, whatever follows. |
| Config.MissingValueIsError | src/main.cpp:777-832 | A value-taking option with nothing after it is an error. |
| Config.TrialsText | src/main.cpp:793-799 | `--trials` followed by any text gives the defaults with the parsed count, or an error when the text does not parse to a count in range. |
| Config.TrialsOption | src/main.cpp:793-799 | Round trip: `--trials N` yields exactly N for every N in [1, 1000000] and an error for every other N. |
| Config.MinDelayAtOrAboveMaxIsError | src/main.cpp:851 | A minimum at or above the default maximum, or a NaN minimum, is an error. |
| Config.EditChecksAgreeOnFinite | src/main.cpp:961-976 | On ordinary numbers, the settings page's minimum and maximum checks accept exactly the values that keep `0 < min < max`. |
| Config.NonFiniteEditPassesAsWritten | src/main.cpp:961-976 | A NaN minimum, a NaN maximum and an infinite maximum all pass the page's checks as written, yet none forms a usable range. |
| Config.ApplyEdit | src/main.cpp:957-989 | A refused edit changes nothing, and an accepted one changes only its field to the parsed value. Valid settings stay valid. A delay edit is accepted iff the text parses and the new range is usable. A trial-count edit is accepted iff the text parses to a count in range. |
| Config.ApplyEditAsWritten | src/main.cpp:957-989 | The page with the program's checks: a delay edit is accepted iff the text parses and the written comparison does not reject it. An accepted delay edit stores the parsed value in its own field and changes nothing else. A refused edit changes nothing, and a trial-count edit behaves as in the corrected page. With an ordinary number typed, valid settings stay valid. |
| Config.NonFiniteEditAcceptedAsWritten | src/main.cpp:961-976 | On the defaults, a NaN minimum, and a NaN or infinite maximum, are taken by the page as written and leave settings no run can use; the corrected page refuses them. |
| Config.ShowSettingsPage | src/main.cpp:941-991 | With the corrected checks: no edit leaves the settings alone, and a single edit gives `ApplyEdit`'s settings. Any sequence of edits keeps valid settings valid and never touches run-once or the output paths. |
| Config.ShowSettingsPageAsWritten | src/main.cpp:941-991 | With the program's checks: no edit leaves the settings alone, and a single edit gives `ApplyEditAsWritten`'s settings. A sequence of edits keeps valid settings valid as long as every delay typed is an ordinary number, and never touches run-once or the output paths. |
| Config.PageComposes | src/main.cpp:943-990 | The page loop applies edits one after another: the page after `a + b` is the page after `b` started from the page after `a`. With the single-edit clause, this pins the page to the edits applied in order. |
| Config.PageAsWrittenComposes | src/main.cpp:943-990 | The same composition for the page with the program's checks. |
| Config.EditsAgreeOnFinite | src/main.cpp:957-989 | From valid settings, with an ordinary number typed, one edit gets the same outcome from the page as written and from the corrected page. |
| Config.PagesAgreeOnFinite | src/main.cpp:941-991 | From valid settings, with only ordinary numbers typed, the page as written and the corrected page end with the same settings. |
| Scenarios.ThreeTrialExample | src/main.cpp:1008-1134 | Three trials with a frequency of 1000 ticks per second: reactions of 150 and 200 ticks then a false start complete the run with those three results. The summary is an average of 175 ticks, 2 valid trials and 1 false start. |
| Scenarios.CancelWhileWaiting | src/main.cpp:1034-1038 | Esc during the first stimulus wait aborts with no results. |
| Scenarios.AbortAfterLastTrial | src/main.cpp:1026-1038 | Esc in the pass after the last trial resolved aborts the run, even though all trials are recorded. |

## Left out

- Direct3D, window creation, full-screen switching, the console and all printing. They only show colours and text. The model records which colour a pass shows (`PresentDark`, `PresentBright`).
- `SetRealtimePriority`, `Sleep` and `SwitchToThread`. They affect scheduling only, so the model records which wait a pass takes.
- The random generator and `uniform_real_distribution`. Each pass carries the delay it would draw, and a well-formed trace keeps it in the closed range [min, max]. The closed range is used because rounding can produce the upper end.
- `QueryPerformanceCounter` and `QueryPerformanceFrequency`. Readings arrive in the pass, and the frequency is a run parameter.
- `QpcDeltaToMilliseconds`. Reactions stay in ticks because the conversion is floating-point scaling.
- Floating-point rounding of `QpcDeltaToSeconds` and of the remaining-time subtraction. Both are exact over the reals in the model.
- Overflow of the 64-bit counter arithmetic. `t0 + t1` and the deltas are unbounded integers.
- `wcstod` and `strtod`. A parameter maps the text to a `Double` or to a rejection.
- `WideToUtf8`. It is the identity on the argument, and an empty result is a failure, as the code treats it.
- `wcstol` and `strtol`, which clamp out-of-range values to the `long` limits. Any clamped value is outside [1, 1000000] anyway, so the model's unbounded parse gives the same answer.
- `CommandLineToArgvW` failure and `GetRawInputData` failure. These are calls into the system; the first is an error return, the second drops the message.
- The text layout of the console report, the CSV file and the JSON file (number formatting, separators, the header line). They are modelled as the structured records they serialise. Opening and writing the files is left out.
- `BuildDefaultCsvPath`, `PromptCsvExport`, `PromptChoice`, `ReadLine`, `ShowAboutPage`, the menus and `wWinMain`. These are I/O around the core. The settings page takes the already-chosen edits as a sequence.
- The control UI under `control-ui/` is not part of this model. It launches the program, probes files and shows the exported JSON, and holds no trial logic.
- Numbers.ParseBoundedInt: reads the whole text, where `strtol` on `c_str()` stops at the first NUL, so a line such as `"7\0x"` is accepted as 7 by the program and refused by the model. It also skips only the six ASCII white-space characters of the "C" locale, while `wcstol` skips whatever `iswspace` accepts, which may be more. Text with an embedded NUL or non-ASCII white space is outside what the model promises.
- Config.ParseArgs: applies the corrected final check (both ends finite, `0 < min < max`) rather than the program's. The program's check is `Config.ParseArgsAsWritten`.
- Config.ApplyEdit: applies the corrected minimum and maximum checks. The program's checks are `Config.MinEditRejectedAsWritten` and `Config.MaxEditRejectedAsWritten`.
- Config.ShowSettingsPage: folds the corrected `Config.ApplyEdit`, so its preservation of valid settings holds for the corrected page only. The program's page is `Config.ShowSettingsPageAsWritten`, which keeps settings valid only while the typed delays are ordinary numbers.
- Results.ExportCsv: writes an empty average cell when no trial is valid, where the program writes 0.0. The program's value is `Results.CsvAverageAsWritten`.

## Findings

| source | as written | input that shows it | evidently intended | confidence | as-written member | corrected member |
|---|---|---|---|---|---|---|
| src/main.cpp:851 | rejects `min <= 0 \|\| max <= 0 \|\| min >= max`; every comparison with NaN is false, and infinity passes | `--min-delay nan` (accepted; the run draws NaN delays), `--max-delay inf` (accepted; the delay never elapses) | accept only finite delays with `0 < min < max` | medium, not executed | Config.NaNMinDelayAcceptedAsWritten | Config.ParseArgs |
| src/main.cpp:961 | the minimum edit rejects `value <= 0 \|\| value >= max` | typing `nan` as the new minimum | the minimum stays a finite number above 0 and below the maximum | medium, not executed | Config.NonFiniteEditAcceptedAsWritten | Config.ApplyEdit |
| src/main.cpp:972 | the maximum edit rejects `value <= min` | typing `nan` or `inf` as the new maximum | the maximum stays a finite number above the minimum | medium, not executed | Config.NonFiniteEditAcceptedAsWritten | Config.ApplyEdit |
| src/main.cpp:551 | the CSV trailer always writes the average, which is 0.0 when no trial is valid | a run of only false starts | no average when no trial is valid, as the JSON export (`null`) and the console summary (no line) do | low, not executed | Results.CsvAverageAsWrittenHidesMissingAverage | Results.CsvAverage |

=== FILE: clock.dfy ===
/** Timing arithmetic over performance-counter ticks: the stimulus timestamp
    estimated from the window around the blocking present, the "has the
    scheduled delay elapsed" test, and the two-tier wait taken while it has
    not. Ticks are integers, so the estimator is modelled exactly. */
module Clock {

  /** C++ `a / 2` on a signed integer: the quotient truncates toward zero,
      unlike Dafny's Euclidean `/`. */
  function HalveTowardZero(a: int): (h: int)
    ensures a >= 0 ==> 0 <= a - 2 * h <= 1
    ensures a < 0 ==> -1 <= a - 2 * h <= 0
  {
    if a >= 0 then a / 2 else -((-a) / 2)
  }

  /** `(t0 + t1) / 2`: the stimulus timestamp, taken as the midpoint of the
      counter readings just before and just after the presenting call. The
      result is within half a tick of the exact midpoint and, for an ordered
      window, never leaves it. */
  function StimulusTimestamp(t0: int, t1: int): (m: int)
    ensures -1 <= 2 * m - (t0 + t1) <= 1
    ensures t0 <= t1 ==> t0 <= m <= t1
  {
    HalveTowardZero(t0 + t1)
  }

  /** A window of zero width pins the stimulus to that reading. */
  lemma CollapsedWindow(t: int)
    ensures StimulusTimestamp(t, t) == t
  {
  }

  /** `QpcDeltaToSeconds`, exact over the reals. */
  function TicksToSeconds(delta: int, frequency: int): real
    requires frequency > 0
  {
    delta as real / frequency as real
  }

  /** The test `elapsed >= scheduledDelaySeconds` in the waiting phase. */
  predicate DelayElapsed(trialStart: int, now: int, frequency: int, delaySeconds: real)
    requires frequency > 0
  {
    TicksToSeconds(now - trialStart, frequency) >= delaySeconds
  }

  /** The same test stated in ticks: the delay has elapsed once the counter
      has advanced by at least `delaySeconds * frequency`. */
  lemma DelayElapsedInTicks(trialStart: int, now: int, frequency: int, delaySeconds: real)
    requires frequency > 0
    ensures DelayElapsed(trialStart, now, frequency, delaySeconds)
        <==> (now - trialStart) as real >= delaySeconds * frequency as real
  {
    var f := frequency as real;
    var d := (now - trialStart) as real;
    assert TicksToSeconds(now - trialStart, frequency) * f == d;
    if d >= delaySeconds * f {
      assert (d / f - delaySeconds) * f >= 0.0;
    } else {
      assert (d / f - delaySeconds) * f < 0.0;
    }
  }

  /** Remaining time above which the loop sleeps for a millisecond rather
      than only yielding its time slice. */
  const CoarseWaitThresholdSeconds: real := 0.003

  /** What the loop does while the scheduled delay has not yet elapsed. */
  datatype Wait = SleepOneMillisecond | YieldTimeSlice

  /** Coarse sleep far from the deadline, a bare yield close to it. */
  function WaitBeforeDeadline(remainingSeconds: real): (w: Wait)
    ensures w == SleepOneMillisecond <==> remainingSeconds > CoarseWaitThresholdSeconds
  {
    if remainingSeconds > CoarseWaitThresholdSeconds then SleepOneMillisecond else YieldTimeSlice
  }

  /** The wait rule stated in ticks: the loop sleeps exactly while the
      counter is still more than `(delaySeconds - 0.003) * frequency` ticks
      short of the trial start plus the delay. */
  lemma WaitInTicks(trialStart: int, now: int, frequency: int, delaySeconds: real)
    requires frequency > 0
    ensures WaitBeforeDeadline(delaySeconds - TicksToSeconds(now - trialStart, frequency)) == SleepOneMillisecond
        <==> (now - trialStart) as real < (delaySeconds - CoarseWaitThresholdSeconds) * frequency as real
  {
    var f := frequency as real;
    var d := (now - trialStart) as real;
    var bound := delaySeconds - CoarseWaitThresholdSeconds;
    assert TicksToSeconds(now - trialStart, frequency) * f == d;
    if d < bound * f {
      assert (bound - d / f) * f > 0.0;
    } else {
      assert (bound - d / f) * f <= 0.0;
    }
  }

  /** The two tiers come in order: under a counter that never goes back,
      once a wait for a deadline only yields, every later wait for the same
      deadline only yields too. */
  lemma YieldUntilDeadline(trialStart: int, now: int, later: int, frequency: int, delaySeconds: real)
    requires frequency > 0 && now <= later
    requires WaitBeforeDeadline(delaySeconds - TicksToSeconds(now - trialStart, frequency)) == YieldTimeSlice
    ensures WaitBeforeDeadline(delaySeconds - TicksToSeconds(later - trialStart, frequency)) == YieldTimeSlice
  {
    WaitInTicks(trialStart, now, frequency, delaySeconds);
    WaitInTicks(trialStart, later, frequency, delaySeconds);
  }
}

=== FILE: config.dfy ===
/** Configuration: the command-line option loop with its final validation,
    and the edit rules of the interactive settings page. Delays are compared
    as IEEE doubles here, since that is where a NaN or an infinity typed by
    the user would meet the checks. Parsing a double (`wcstod`, `strtod`) is
    a parameter: it maps the text to the value or to a rejection. */
module Config {
  import opened Numbers
  import Trial

  /** The configurable part of the application state. */
  datatype Settings = Settings(
    trialCount: int,
    minDelaySeconds: Double,
    maxDelaySeconds: Double,
    runOnceNoPrompt: bool,
    jsonOutputPath: string,
    csvOutputPath: string)

  /** The values the application starts with. */
  const Defaults: Settings := Settings(10, Finite(2.0), Finite(5.0), false, "", "")

  /** A usable delay range: both ends ordinary numbers, `0 < min < max`. */
  predicate DelayRangeValid(minDelay: Double, maxDelay: Double) {
    minDelay.Finite? && maxDelay.Finite? && 0.0 < minDelay.value < maxDelay.value
  }

  predicate TrialCountValid(n: int) {
    MinParsedInt <= n <= MaxParsedInt
  }

  /** Settings a run can start from. */
  predicate SettingsValid(st: Settings) {
    DelayRangeValid(st.minDelaySeconds, st.maxDelaySeconds) && TrialCountValid(st.trialCount)
  }

  /** The run parameters of valid settings, with counter frequency `frequency`. */
  function RunConfigOf(st: Settings, frequency: int): (c: Option<Trial.RunConfig>)
    ensures c.Some? <==> SettingsValid(st) && frequency > 0
    ensures c.Some? ==> c.value.Valid() && c.value.trialCount == st.trialCount
  {
    if SettingsValid(st) && frequency > 0 then
      Some(Trial.RunConfig(st.trialCount, st.minDelaySeconds.value, st.maxDelaySeconds.value, frequency))
    else None
  }

  // ---------------------------------------------------------------------
  // The final check of `ParseArgs`
  // ---------------------------------------------------------------------

  /** `min <= 0.0 || max <= 0.0 || min >= max` with IEEE comparisons, as
      the program writes it. */
  predicate DelaysRejectedAsWritten(minDelay: Double, maxDelay: Double) {
    AtMost(minDelay, Finite(0.0)) || AtMost(maxDelay, Finite(0.0)) || AtMost(maxDelay, minDelay)
  }

  /** On ordinary numbers the check as written is exactly `0 < min < max`. */
  lemma DelayChecksAgreeOnFinite(a: real, b: real)
    ensures !DelaysRejectedAsWritten(Finite(a), Finite(b)) <==> DelayRangeValid(Finite(a), Finite(b))
  {
  }

  /** A NaN minimum (`--min-delay nan`) or an infinite maximum
      (`--max-delay inf`) slips through the check as written: every
      comparison with NaN is false, and infinity exceeds every bound. */
  lemma NonFiniteDelayPassesAsWritten()
    ensures !DelaysRejectedAsWritten(NaN, Finite(5.0)) && !DelayRangeValid(NaN, Finite(5.0))
    ensures !DelaysRejectedAsWritten(Finite(2.0), Infinite(false)) && !DelayRangeValid(Finite(2.0), Infinite(false))
  {
  }

  // ---------------------------------------------------------------------
  // The option loop
  // ---------------------------------------------------------------------

  /** Outcome of `ParseArgs`. */
  datatype ArgStatus = ArgsOk | ExitRequested | ArgsError

  /** The status together with the settings as the loop left them (the
      caller still reads `runOnceNoPrompt` on every outcome). */
  datatype ArgParse = ArgParse(status: ArgStatus, settings: Settings)

  /** How the option loop ended. */
  datatype Scan = Scanned(settings: Settings) | HelpSeen(settings: Settings) | Rejected(settings: Settings)

  predicate IsHelp(a: string) {
    a == "--help" || a == "-h"
  }

  /** The options that consume the next argument. */
  predicate TakesValue(a: string) {
    a == "--min-delay" || a == "--max-delay" || a == "--trials" || a == "--json-out" || a == "--csv-out"
  }

  predicate IsKnownOption(a: string) {
    TakesValue(a) || a == "--run-once" || IsHelp(a)
  }

  /** The settings after one value was handled, and whether it was taken. */
  datatype Applied = Applied(settings: Settings, accepted: bool)

  /** Store the value of a value-taking option, or refuse it. A delay or a
      count is stored only once it parses; a path is stored first and then
      refused when empty (the UTF-8 conversion is the identity here). */
  function ApplyValue(st: Settings, option: string, value: string, parseDouble: string -> Option<Double>): (r: Applied)
    requires TakesValue(option)
    ensures option == "--min-delay" ==>
      && (r.accepted <==> parseDouble(value).Some?)
      && r.settings == (if r.accepted then st.(minDelaySeconds := parseDouble(value).value) else st)
    ensures option == "--max-delay" ==>
      && (r.accepted <==> parseDouble(value).Some?)
      && r.settings == (if r.accepted then st.(maxDelaySeconds := parseDouble(value).value) else st)
    ensures option == "--trials" ==>
      && (r.accepted <==> ParseBoundedInt(value).Some?)
      && r.settings == (if r.accepted then st.(trialCount := ParseBoundedInt(value).value) else st)
    ensures option == "--json-out" ==> (r.accepted <==> value != "") && r.settings == st.(jsonOutputPath := value)
    ensures option == "--csv-out" ==> (r.accepted <==> value != "") && r.settings == st.(csvOutputPath := value)
    ensures r.accepted && option == "--trials" ==> TrialCountValid(r.settings.trialCount)
  {
    if option == "--min-delay" then
      (match parseDouble(value)
       case Some(d) => Applied(st.(minDelaySeconds := d), true)
       case None => Applied(st, false))
    else if option == "--max-delay" then
      (match parseDouble(value)
       case Some(d) => Applied(st.(maxDelaySeconds := d), true)
       case None => Applied(st, false))
    else if option == "--trials" then
      (match ParseBoundedInt(value)
       case Some(n) => Applied(st.(trialCount := n), true)
       case None => Applied(st, false))
    else if option == "--json-out" then Applied(st.(jsonOutputPath := value), value != "")
    else Applied(st.(csvOutputPath := value), value != "")
  }

  /** The `for (int i = 1; i < argc; ++i)` loop over the arguments after the
      program name. It stops at the first help option, unknown option,
      missing value or refused value. */
  function ScanOptions(st: Settings, args: seq<string>, parseDouble: string -> Option<Double>): (r: Scan)
    decreases |args|
    ensures TrialCountValid(st.trialCount) ==> TrialCountValid(r.settings.trialCount)
    ensures r.HelpSeen? ==> exists i :: 0 <= i < |args| && IsHelp(args[i])
    ensures |args| > 0 && !IsKnownOption(args[0]) ==> r == Rejected(st)
  {
    if |args| == 0 then Scanned(st)
    else
      var a := args[0];
      if a == "--run-once" then
        var r := ScanOptions(st.(runOnceNoPrompt := true), args[1..], parseDouble);
        assert r.HelpSeen? ==> exists i :: 1 <= i < |args| && IsHelp(args[i]) by {
          if r.HelpSeen? {
            var j :| 0 <= j < |args[1..]| && IsHelp(args[1..][j]);
            assert args[j + 1] == args[1..][j];
          }
        }
        r
      else if IsHelp(a) then HelpSeen(st)
      else if TakesValue(a) then
        if |args| < 2 then Rejected(st)
        else
          var applied := ApplyValue(st, a, args[1], parseDouble);
          if !applied.accepted then Rejected(applied.settings)
          else
            var r := ScanOptions(applied.settings, args[2..], parseDouble);
            assert r.HelpSeen? ==> exists i :: 2 <= i < |args| && IsHelp(args[i]) by {
              if r.HelpSeen? {
                var j :| 0 <= j < |args[2..]| && IsHelp(args[2..][j]);
                assert args[j + 2] == args[2..][j];
              }
            }
            r
      else Rejected(st)
  }

  /** `ParseArgs`: help wins over everything after it and over the final
      check; otherwise the loop must finish and the delays must form a
      usable range. The final check is the corrected one (see
      `DelaysRejectedAsWritten` for the program's). */
  function ParseArgs(args: seq<string>, parseDouble: string -> Option<Double>): (r: ArgParse)
    ensures r.status == ArgsOk ==> SettingsValid(r.settings)
    ensures r.status == ExitRequested ==> exists i :: 0 <= i < |args| && IsHelp(args[i])
    ensures |args| > 0 && !IsKnownOption(args[0]) ==> r.status == ArgsError
    // The loop decides help and refusals; a loop that runs to the end is
    // accepted exactly when its delays form a usable range.
    ensures r.settings == ScanOptions(Defaults, args, parseDouble).settings
    ensures r.status == ExitRequested <==> ScanOptions(Defaults, args, parseDouble).HelpSeen?
    ensures ScanOptions(Defaults, args, parseDouble).Rejected? ==> r.status == ArgsError
    ensures ScanOptions(Defaults, args, parseDouble).Scanned? ==>
      (r.status == ArgsOk <==> DelayRangeValid(r.settings.minDelaySeconds, r.settings.maxDelaySeconds))
  {
    match ScanOptions(Defaults, args, parseDouble)
    case HelpSeen(st) => ArgParse(ExitRequested, st)
    case Rejected(st) => ArgParse(ArgsError, st)
    case Scanned(st) =>
      if DelayRangeValid(st.minDelaySeconds, st.maxDelaySeconds) then ArgParse(ArgsOk, st)
      else ArgParse(ArgsError, st)
  }

  /** `ParseArgs` with the final check as the program writes it. */
  function ParseArgsAsWritten(args: seq<string>, parseDouble: string -> Option<Double>): (r: ArgParse)
    ensures r.status == ArgsOk ==> !DelaysRejectedAsWritten(r.settings.minDelaySeconds, r.settings.maxDelaySeconds)
    ensures r.status != ArgsOk ==> r == ParseArgs(args, parseDouble)
    ensures r.settings == ScanOptions(Defaults, args, parseDouble).settings
    ensures ScanOptions(Defaults, args, parseDouble).Scanned? ==>
      (r.status == ArgsOk <==> !DelaysRejectedAsWritten(r.settings.minDelaySeconds, r.settings.maxDelaySeconds))
  {
    match ScanOptions(Defaults, args, parseDouble)
    case HelpSeen(st) => ArgParse(ExitRequested, st)
    case Rejected(st) => ArgParse(ArgsError, st)
    case Scanned(st) =>
      if DelaysRejectedAsWritten(st.minDelaySeconds, st.maxDelaySeconds) then ArgParse(ArgsError, st)
      else ArgParse(ArgsOk, st)
  }

  /** The two checks differ exactly on non-finite delays: whatever the
      program accepts is accepted by the corrected check too, unless one
      end of the range is a NaN or an infinity. */
  lemma ParseArgsAgreeOnFinite(args: seq<string>, parseDouble: string -> Option<Double>)
    ensures ParseArgs(args, parseDouble).status == ArgsOk ==> ParseArgsAsWritten(args, parseDouble).status == ArgsOk
    ensures ParseArgsAsWritten(args, parseDouble).status == ArgsOk ==>
      (ParseArgs(args, parseDouble).status == ArgsOk <==>
        ParseArgs(args, parseDouble).settings.minDelaySeconds.Finite?
        && ParseArgs(args, parseDouble).settings.maxDelaySeconds.Finite?)
  {
    match ScanOptions(Defaults, args, parseDouble)
    case HelpSeen(_) =>
    case Rejected(_) =>
    case Scanned(st) =>
      var a := st.minDelaySeconds;
      var b := st.maxDelaySeconds;
      if a.Finite? && b.Finite? {
        DelayChecksAgreeOnFinite(a.value, b.value);
      }
  }

  /** `--min-delay nan`: the program starts a run with a NaN minimum delay,
      the corrected check refuses it. */
  lemma NaNMinDelayAcceptedAsWritten(text: string, parseDouble: string -> Option<Double>)
    requires parseDouble(text) == Some(NaN)
    ensures ParseArgsAsWritten(["--min-delay", text], parseDouble) == ArgParse(ArgsOk, Defaults.(minDelaySeconds := NaN))
    ensures ParseArgs(["--min-delay", text], parseDouble).status == ArgsError
  {
    ScanOneOption(Defaults, "--min-delay", text, parseDouble);
    assert ApplyValue(Defaults, "--min-delay", text, parseDouble) == Applied(Defaults.(minDelaySeconds := NaN), true);
  }

  /** No arguments: the defaults, which are valid. */
  lemma NoArgumentsGiveDefaults(parseDouble: string -> Option<Double>)
    ensures ParseArgs([], parseDouble) == ArgParse(ArgsOk, Defaults)
  {
  }

  /** `--help` or `-h` first requests exit whatever follows. */
  lemma HelpFirstRequestsExit(h: string, rest: seq<string>, parseDouble: string -> Option<Double>)
    requires IsHelp(h)
    ensures ParseArgs([h] + rest, parseDouble).status == ExitRequested
  {
  }

  /** A value-taking option with nothing after it is an error. */
  lemma MissingValueIsError(option: string, parseDouble: string -> Option<Double>)
    requires TakesValue(option)
    ensures ParseArgs([option], parseDouble).status == ArgsError
  {
  }

  /** The option loop over a single option and its value. */
  lemma ScanOneOption(st: Settings, option: string, value: string, parseDouble: string -> Option<Double>)
    requires TakesValue(option)
    ensures !ApplyValue(st, option, value, parseDouble).accepted ==>
      ScanOptions(st, [option, value], parseDouble) == Rejected(ApplyValue(st, option, value, parseDouble).settings)
    ensures ApplyValue(st, option, value, parseDouble).accepted ==>
      ScanOptions(st, [option, value], parseDouble) == Scanned(ApplyValue(st, option, value, parseDouble).settings)
  {
    var args := [option, value];
    assert args[0] == option && args[1] == value && args[2..] == [];
    assert !IsHelp(option) && option != "--run-once";
  }

  /** One turn of the loop on `--run-once`. */
  lemma ScanRunOnce(st: Settings, args: seq<string>, parseDouble: string -> Option<Double>)
    requires |args| > 0 && args[0] == "--run-once"
    ensures ScanOptions(st, args, parseDouble) == ScanOptions(st.(runOnceNoPrompt := true), args[1..], parseDouble)
  {
  }

  /** One turn of the loop on a value-taking option whose value is taken. */
  lemma ScanTakenValue(st: Settings, args: seq<string>, parseDouble: string -> Option<Double>)
    requires |args| >= 2 && TakesValue(args[0]) && ApplyValue(st, args[0], args[1], parseDouble).accepted
    ensures ScanOptions(st, args, parseDouble)
         == ScanOptions(ApplyValue(st, args[0], args[1], parseDouble).settings, args[2..], parseDouble)
  {
    assert !IsHelp(args[0]) && args[0] != "--run-once";
  }

  /** A loop that runs to the end starts with `--run-once` or with a
      value-taking option whose value is taken. */
  lemma ScannedHead(st: Settings, p: seq<string>, parseDouble: string -> Option<Double>)
    requires |p| > 0 && ScanOptions(st, p, parseDouble).Scanned?
    ensures p[0] == "--run-once" || (|p| >= 2 && TakesValue(p[0]) && ApplyValue(st, p[0], p[1], parseDouble).accepted)
  {
  }

  /** One turn of the loop on `--run-once`, with more arguments after. */
  lemma ScanRunOnceAppended(st: Settings, p: seq<string>, rest: seq<string>, parseDouble: string -> Option<Double>)
    requires |p| > 0 && p[0] == "--run-once"
    ensures ScanOptions(st, p + rest, parseDouble) == ScanOptions(st.(runOnceNoPrompt := true), p[1..] + rest, parseDouble)
  {
    var q := p + rest;
    assert q[0] == p[0];
    assert q[1..] == p[1..] + rest;
    ScanRunOnce(st, q, parseDouble);
  }

  /** One turn of the loop on a taken value, with more arguments after. */
  lemma ScanTakenValueAppended(st: Settings, p: seq<string>, rest: seq<string>, parseDouble: string -> Option<Double>)
    requires |p| >= 2 && TakesValue(p[0]) && ApplyValue(st, p[0], p[1], parseDouble).accepted
    ensures ScanOptions(st, p + rest, parseDouble)
         == ScanOptions(ApplyValue(st, p[0], p[1], parseDouble).settings, p[2..] + rest, parseDouble)
  {
    var q := p + rest;
    assert q[0] == p[0] && q[1] == p[1];
    assert q[2..] == p[2..] + rest;
    ScanTakenValue(st, q, parseDouble);
  }

  /** The composition step for a prefix starting with `--run-once`, given
      the composition for the rest of the prefix. */
  lemma ScanAfterRunOnce(st: Settings, p: seq<string>, rest: seq<string>, parseDouble: string -> Option<Double>)
    requires |p| > 0 && p[0] == "--run-once"
    requires ScanOptions(st.(runOnceNoPrompt := true), p[1..] + rest, parseDouble)
          == ScanOptions(ScanOptions(st.(runOnceNoPrompt := true), p[1..], parseDouble).settings, rest, parseDouble)
    ensures ScanOptions(st, p + rest, parseDouble) == ScanOptions(ScanOptions(st, p, parseDouble).settings, rest, parseDouble)
  {
    ScanRunOnceAppended(st, p, rest, parseDouble);
    ScanRunOnce(st, p, parseDouble);
  }

  /** The composition step for a prefix starting with a taken value, given
      the composition for the rest of the prefix. */
  lemma ScanAfterTakenValue(st: Settings, p: seq<string>, rest: seq<string>, parseDouble: string -> Option<Double>)
    requires |p| >= 2 && TakesValue(p[0]) && ApplyValue(st, p[0], p[1], parseDouble).accepted
    requires ScanOptions(ApplyValue(st, p[0], p[1], parseDouble).settings, p[2..] + rest, parseDouble)
          == ScanOptions(ScanOptions(ApplyValue(st, p[0], p[1], parseDouble).settings, p[2..], parseDouble).settings,
                         rest, parseDouble)
    ensures ScanOptions(st, p + rest, parseDouble) == ScanOptions(ScanOptions(st, p, parseDouble).settings, rest, parseDouble)
  {
    ScanTakenValueAppended(st, p, rest, parseDouble);
    ScanTakenValue(st, p, parseDouble);
  }

  /** The loop carries on from where a finished prefix left it: scanning
      `p + rest` is scanning `rest` from the settings `p` produced. */
  lemma {:induction false} ScanAfterPrefix(st: Settings, p: seq<string>, rest: seq<string>, parseDouble: string -> Option<Double>)
    requires ScanOptions(st, p, parseDouble).Scanned?
    ensures ScanOptions(st, p + rest, parseDouble) == ScanOptions(ScanOptions(st, p, parseDouble).settings, rest, parseDouble)
    decreases |p|
  {
    if |p| == 0 {
      assert p + rest == rest;
    } else {
      ScannedHead(st, p, parseDouble);
      if p[0] == "--run-once" {
        ScanRunOnce(st, p, parseDouble);
        ScanAfterPrefix(st.(runOnceNoPrompt := true), p[1..], rest, parseDouble);
        ScanAfterRunOnce(st, p, rest, parseDouble);
      } else {
        ScanTakenValue(st, p, parseDouble);
        ScanAfterPrefix(ApplyValue(st, p[0], p[1], parseDouble).settings, p[2..], rest, parseDouble);
        ScanAfterTakenValue(st, p, rest, parseDouble);
      }
    }
  }

  /** An unknown argument where an option is expected is an error, however
      many options came before it. */
  lemma UnknownOptionIsErrorAnywhere(p: seq<string>, a: string, rest: seq<string>, parseDouble: string -> Option<Double>)
    requires ScanOptions(Defaults, p, parseDouble).Scanned? && !IsKnownOption(a)
    ensures ParseArgs(p + ([a] + rest), parseDouble).status == ArgsError
  {
    ScanAfterPrefix(Defaults, p, [a] + rest, parseDouble);
  }

  /** `--help` or `-h` where an option is expected requests exit, however
      many options came before it and whatever follows. */
  lemma HelpIsExitAnywhere(p: seq<string>, h: string, rest: seq<string>, parseDouble: string -> Option<Double>)
    requires ScanOptions(Defaults, p, parseDouble).Scanned? && IsHelp(h)
    ensures ParseArgs(p + ([h] + rest), parseDouble).status == ExitRequested
  {
    ScanAfterPrefix(Defaults, p, [h] + rest, parseDouble);
  }

  /** A value-taking option as the last argument is an error wherever it
      stands. */
  lemma MissingValueIsErrorAnywhere(p: seq<string>, option: string, parseDouble: string -> Option<Double>)
    requires ScanOptions(Defaults, p, parseDouble).Scanned? && TakesValue(option)
    ensures ParseArgs(p + [option], parseDouble).status == ArgsError
  {
    ScanAfterPrefix(Defaults, p, [option], parseDouble);
    assert !IsHelp(option) && option != "--run-once";
  }

  /** A taken value lets the loop carry on from the settings it stored,
      wherever it stands. */
  lemma AcceptedValueAnywhere(p: seq<string>, st: Settings, option: string, value: string, rest: seq<string>,
                              parseDouble: string -> Option<Double>)
    requires ScanOptions(Defaults, p, parseDouble) == Scanned(st) && TakesValue(option)
    ensures ApplyValue(st, option, value, parseDouble).accepted ==>
      ScanOptions(Defaults, p + ([option, value] + rest), parseDouble)
        == ScanOptions(ApplyValue(st, option, value, parseDouble).settings, rest, parseDouble)
  {
    var args := [option, value] + rest;
    ScanAfterPrefix(Defaults, p, args, parseDouble);
    if ApplyValue(st, option, value, parseDouble).accepted {
      assert args[0] == option && args[1] == value && args[2..] == rest;
      ScanTakenValue(st, args, parseDouble);
    }
  }

  /** The usage line `--min-delay 1 --max-delay 3`: both values are stored
      and the line is accepted by both final checks. */
  lemma DelayRangeLineAccepted(one: string, three: string, parseDouble: string -> Option<Double>)
    requires parseDouble(one) == Some(Finite(1.0)) && parseDouble(three) == Some(Finite(3.0))
    ensures ParseArgs(["--min-delay", one, "--max-delay", three], parseDouble)
         == ArgParse(ArgsOk, Defaults.(minDelaySeconds := Finite(1.0), maxDelaySeconds := Finite(3.0)))
    ensures ParseArgsAsWritten(["--min-delay", one, "--max-delay", three], parseDouble).status == ArgsOk
  {
    var st1 := Defaults.(minDelaySeconds := Finite(1.0));
    var st2 := st1.(maxDelaySeconds := Finite(3.0));
    assert ApplyValue(Defaults, "--min-delay", one, parseDouble) == Applied(st1, true);
    assert ApplyValue(st1, "--max-delay", three, parseDouble) == Applied(st2, true);
    assert ScanOptions(Defaults, [], parseDouble) == Scanned(Defaults);
    AcceptedValueAnywhere([], Defaults, "--min-delay", one, ["--max-delay", three], parseDouble);
    ScanOneOption(st1, "--max-delay", three, parseDouble);
    assert [] + (["--min-delay", one] + ["--max-delay", three]) == ["--min-delay", one, "--max-delay", three];
  }

  /** A refused value is an error wherever it stands, whatever follows. */
  lemma RefusedValueIsErrorAnywhere(p: seq<string>, st: Settings, option: string, value: string, rest: seq<string>,
                                    parseDouble: string -> Option<Double>)
    requires ScanOptions(Defaults, p, parseDouble) == Scanned(st) && TakesValue(option)
    ensures !ApplyValue(st, option, value, parseDouble).accepted ==>
      ParseArgs(p + ([option, value] + rest), parseDouble).status == ArgsError
  {
    var args := [option, value] + rest;
    ScanAfterPrefix(Defaults, p, args, parseDouble);
    assert args[0] == option && args[1] == value;
    assert !IsHelp(option) && option != "--run-once";
  }

  /** `--trials` followed by any text: the parsed count, or an error. */
  lemma TrialsText(text: string, parseDouble: string -> Option<Double>)
    ensures ParseBoundedInt(text).Some? ==>
      ParseArgs(["--trials", text], parseDouble) == ArgParse(ArgsOk, Defaults.(trialCount := ParseBoundedInt(text).value))
    ensures ParseBoundedInt(text).None? ==> ParseArgs(["--trials", text], parseDouble).status == ArgsError
  {
    ScanOneOption(Defaults, "--trials", text, parseDouble);
    var applied := ApplyValue(Defaults, "--trials", text, parseDouble);
    match ParseBoundedInt(text)
    case Some(n) =>
      assert applied == Applied(Defaults.(trialCount := n), true);
      assert DelayRangeValid(applied.settings.minDelaySeconds, applied.settings.maxDelaySeconds);
    case None =>
      assert !applied.accepted;
  }

  /** Round trip: `--trials N` yields exactly N for every N in range, and an
      error for every larger N. */
  lemma TrialsOption(n: nat, parseDouble: string -> Option<Double>)
    ensures TrialCountValid(n) ==>
      ParseArgs(["--trials", Decimal(n)], parseDouble) == ArgParse(ArgsOk, Defaults.(trialCount := n))
    ensures !TrialCountValid(n) ==> ParseArgs(["--trials", Decimal(n)], parseDouble).status == ArgsError
  {
    ParseDecimal(n);
    TrialsText(Decimal(n), parseDouble);
  }

  /** A minimum delay at or above the (default) maximum is an error, and so
      is a NaN minimum, which the program as written would accept. */
  lemma MinDelayAtOrAboveMaxIsError(text: string, parseDouble: string -> Option<Double>)
    requires parseDouble(text).Some?
    requires parseDouble(text).value == NaN
             || (parseDouble(text).value.Finite? && parseDouble(text).value.value >= 5.0)
    ensures ParseArgs(["--min-delay", text], parseDouble).status == ArgsError
  {
    ScanOneOption(Defaults, "--min-delay", text, parseDouble);
    assert ApplyValue(Defaults, "--min-delay", text, parseDouble) == Applied(Defaults.(minDelaySeconds := parseDouble(text).value), true);
  }

  // ---------------------------------------------------------------------
  // The settings page
  // ---------------------------------------------------------------------

  /** One accepted line of input on the settings page. */
  datatype SettingsEdit = EditMinDelay(text: string) | EditMaxDelay(text: string) | EditTrialCount(text: string)

  /** `value <= 0.0 || value >= max` as the program writes the minimum-edit check. */
  predicate MinEditRejectedAsWritten(value: Double, maxDelay: Double) {
    AtMost(value, Finite(0.0)) || AtMost(maxDelay, value)
  }

  /** `value <= min` as the program writes the maximum-edit check. */
  predicate MaxEditRejectedAsWritten(value: Double, minDelay: Double) {
    AtMost(value, minDelay)
  }

  /** On ordinary numbers, and from a valid range, the checks as written
      accept exactly the edits that keep `0 < min < max`. */
  lemma EditChecksAgreeOnFinite(st: Settings, v: real)
    requires DelayRangeValid(st.minDelaySeconds, st.maxDelaySeconds)
    ensures !MinEditRejectedAsWritten(Finite(v), st.maxDelaySeconds)
            <==> DelayRangeValid(Finite(v), st.maxDelaySeconds)
    ensures !MaxEditRejectedAsWritten(Finite(v), st.minDelaySeconds)
            <==> DelayRangeValid(st.minDelaySeconds, Finite(v))
  {
  }

  /** Entering `nan` passes both checks as written and leaves a range
      that is no longer `0 < min < max`; `inf` passes the maximum check. */
  lemma NonFiniteEditPassesAsWritten()
    ensures !MinEditRejectedAsWritten(NaN, Finite(5.0)) && !DelayRangeValid(NaN, Finite(5.0))
    ensures !MaxEditRejectedAsWritten(NaN, Finite(2.0)) && !DelayRangeValid(Finite(2.0), NaN)
    ensures !MaxEditRejectedAsWritten(Infinite(false), Finite(2.0)) && !DelayRangeValid(Finite(2.0), Infinite(false))
  {
  }

  /** The rules of `ShowSettingsPage` for one edit, with the corrected
      delay checks: a refused edit changes nothing, an accepted one changes
      only its own field, and valid settings stay valid. */
  function ApplyEdit(st: Settings, e: SettingsEdit, parseDouble: string -> Option<Double>): (r: Applied)
    ensures !r.accepted ==> r.settings == st
    ensures SettingsValid(st) ==> SettingsValid(r.settings)
    ensures r.accepted && e.EditMinDelay? ==>
      && parseDouble(e.text) == Some(r.settings.minDelaySeconds)
      && r.settings == st.(minDelaySeconds := r.settings.minDelaySeconds)
    ensures r.accepted && e.EditMaxDelay? ==>
      && parseDouble(e.text) == Some(r.settings.maxDelaySeconds)
      && r.settings == st.(maxDelaySeconds := r.settings.maxDelaySeconds)
    ensures r.accepted && e.EditTrialCount? ==>
      && ParseBoundedInt(e.text) == Some(r.settings.trialCount)
      && r.settings == st.(trialCount := r.settings.trialCount)
    ensures e.EditTrialCount? ==> (r.accepted <==> ParseBoundedInt(e.text).Some?)
    ensures e.EditMinDelay? ==>
      (r.accepted <==> parseDouble(e.text).Some? && DelayRangeValid(parseDouble(e.text).value, st.maxDelaySeconds))
    ensures e.EditMaxDelay? ==>
      (r.accepted <==> parseDouble(e.text).Some? && DelayRangeValid(st.minDelaySeconds, parseDouble(e.text).value))
  {
    match e
    case EditMinDelay(text) =>
      (match parseDouble(text)
       case Some(v) =>
         if DelayRangeValid(v, st.maxDelaySeconds) then Applied(st.(minDelaySeconds := v), true)
         else Applied(st, false)
       case None => Applied(st, false))
    case EditMaxDelay(text) =>
      (match parseDouble(text)
       case Some(v) =>
         if DelayRangeValid(st.minDelaySeconds, v) then Applied(st.(maxDelaySeconds := v), true)
         else Applied(st, false)
       case None => Applied(st, false))
    case EditTrialCount(text) =>
      (match ParseBoundedInt(text)
       case Some(n) => Applied(st.(trialCount := n), true)
       case None => Applied(st, false))
  }

  /** The value typed for a delay edit, if it parses, is an ordinary number. */
  predicate TypedValueFinite(e: SettingsEdit, parseDouble: string -> Option<Double>) {
    e.EditTrialCount? || parseDouble(e.text).None? || parseDouble(e.text).value.Finite?
  }

  /** One edit with the page's delay checks as the program writes them. */
  function ApplyEditAsWritten(st: Settings, e: SettingsEdit, parseDouble: string -> Option<Double>): (r: Applied)
    ensures !r.accepted ==> r.settings == st
    ensures e.EditTrialCount? ==> r == ApplyEdit(st, e, parseDouble)
    ensures SettingsValid(st) && TypedValueFinite(e, parseDouble) ==> SettingsValid(r.settings)
    ensures r.accepted && e.EditMinDelay? ==>
      && parseDouble(e.text) == Some(r.settings.minDelaySeconds)
      && r.settings == st.(minDelaySeconds := r.settings.minDelaySeconds)
    ensures r.accepted && e.EditMaxDelay? ==>
      && parseDouble(e.text) == Some(r.settings.maxDelaySeconds)
      && r.settings == st.(maxDelaySeconds := r.settings.maxDelaySeconds)
    ensures e.EditMinDelay? ==>
      (r.accepted <==> parseDouble(e.text).Some? && !MinEditRejectedAsWritten(parseDouble(e.text).value, st.maxDelaySeconds))
    ensures e.EditMaxDelay? ==>
      (r.accepted <==> parseDouble(e.text).Some? && !MaxEditRejectedAsWritten(parseDouble(e.text).value, st.minDelaySeconds))
  {
    match e
    case EditMinDelay(text) =>
      (match parseDouble(text)
       case Some(v) =>
         if MinEditRejectedAsWritten(v, st.maxDelaySeconds) then Applied(st, false)
         else Applied(st.(minDelaySeconds := v), true)
       case None => Applied(st, false))
    case EditMaxDelay(text) =>
      (match parseDouble(text)
       case Some(v) =>
         if MaxEditRejectedAsWritten(v, st.minDelaySeconds) then Applied(st, false)
         else Applied(st.(maxDelaySeconds := v), true)
       case None => Applied(st, false))
    case EditTrialCount(_) => ApplyEdit(st, e, parseDouble)
  }

  /** Typing `nan` for the minimum, or `nan` or `inf` for the maximum, on
      the default settings: the page as written takes the value and leaves
      settings no run can use; the corrected page refuses it. */
  lemma NonFiniteEditAcceptedAsWritten(text: string, parseDouble: string -> Option<Double>)
    requires parseDouble(text) == Some(NaN) || parseDouble(text) == Some(Infinite(false))
    ensures parseDouble(text) == Some(NaN) ==>
      && ApplyEditAsWritten(Defaults, EditMinDelay(text), parseDouble).accepted
      && !SettingsValid(ApplyEditAsWritten(Defaults, EditMinDelay(text), parseDouble).settings)
      && !ApplyEdit(Defaults, EditMinDelay(text), parseDouble).accepted
    ensures && ApplyEditAsWritten(Defaults, EditMaxDelay(text), parseDouble).accepted
            && !SettingsValid(ApplyEditAsWritten(Defaults, EditMaxDelay(text), parseDouble).settings)
            && !ApplyEdit(Defaults, EditMaxDelay(text), parseDouble).accepted
  {
  }

  /** A visit to the settings page: the edits in the order entered. */
  function ShowSettingsPage(st: Settings, edits: seq<SettingsEdit>, parseDouble: string -> Option<Double>): (r: Settings)
    decreases |edits|
    ensures |edits| == 0 ==> r == st
    ensures |edits| == 1 ==> r == ApplyEdit(st, edits[0], parseDouble).settings
    ensures SettingsValid(st) ==> SettingsValid(r)
    ensures r.runOnceNoPrompt == st.runOnceNoPrompt
    ensures r.jsonOutputPath == st.jsonOutputPath && r.csvOutputPath == st.csvOutputPath
  {
    if |edits| == 0 then st
    else ShowSettingsPage(ApplyEdit(st, edits[0], parseDouble).settings, edits[1..], parseDouble)
  }

  /** A visit to the settings page with its checks as the program writes
      them: valid settings stay valid as long as every delay typed is an
      ordinary number. */
  function ShowSettingsPageAsWritten(st: Settings, edits: seq<SettingsEdit>, parseDouble: string -> Option<Double>): (r: Settings)
    decreases |edits|
    ensures |edits| == 0 ==> r == st
    ensures |edits| == 1 ==> r == ApplyEditAsWritten(st, edits[0], parseDouble).settings
    ensures SettingsValid(st) && (forall i :: 0 <= i < |edits| ==> TypedValueFinite(edits[i], parseDouble))
            ==> SettingsValid(r)
    ensures r.runOnceNoPrompt == st.runOnceNoPrompt
    ensures r.jsonOutputPath == st.jsonOutputPath && r.csvOutputPath == st.csvOutputPath
  {
    if |edits| == 0 then st
    else
      assert forall i :: 0 <= i < |edits| - 1 ==> edits[1..][i] == edits[i + 1];
      ShowSettingsPageAsWritten(ApplyEditAsWritten(st, edits[0], parseDouble).settings, edits[1..], parseDouble)
  }

  /** From valid settings, with ordinary numbers typed, one edit gets the
      same answer from the page as written and from the corrected page. */
  lemma EditsAgreeOnFinite(st: Settings, e: SettingsEdit, parseDouble: string -> Option<Double>)
    requires SettingsValid(st) && TypedValueFinite(e, parseDouble)
    ensures ApplyEditAsWritten(st, e, parseDouble) == ApplyEdit(st, e, parseDouble)
  {
    if !e.EditTrialCount? && parseDouble(e.text).Some? {
      EditChecksAgreeOnFinite(st, parseDouble(e.text).value.value);
    }
  }

  /** The two pages agree on every visit that starts from valid settings
      and types only ordinary numbers. */
  lemma {:induction false} PagesAgreeOnFinite(st: Settings, edits: seq<SettingsEdit>, parseDouble: string -> Option<Double>)
    requires SettingsValid(st) && forall i :: 0 <= i < |edits| ==> TypedValueFinite(edits[i], parseDouble)
    ensures ShowSettingsPageAsWritten(st, edits, parseDouble) == ShowSettingsPage(st, edits, parseDouble)
    decreases |edits|
  {
    if |edits| > 0 {
      EditsAgreeOnFinite(st, edits[0], parseDouble);
      assert forall i :: 0 <= i < |edits| - 1 ==> edits[1..][i] == edits[i + 1];
      PagesAgreeOnFinite(ApplyEdit(st, edits[0], parseDouble).settings, edits[1..], parseDouble);
    }
  }

  /** A visit is its edits one after another: the page after `a + b` is the
      page after `b` started from the page after `a`. */
  lemma {:induction false} PageComposes(st: Settings, a: seq<SettingsEdit>, b: seq<SettingsEdit>,
                                        parseDouble: string -> Option<Double>)
    ensures ShowSettingsPage(st, a + b, parseDouble) == ShowSettingsPage(ShowSettingsPage(st, a, parseDouble), b, parseDouble)
    decreases |a|
  {
    if |a| > 0 {
      assert (a + b)[0] == a[0] && (a + b)[1..] == a[1..] + b;
      PageComposes(ApplyEdit(st, a[0], parseDouble).settings, a[1..], b, parseDouble);
    } else {
      assert a + b == b;
    }
  }

  /** The same composition for the page as written. */
  lemma {:induction false} PageAsWrittenComposes(st: Settings, a: seq<SettingsEdit>, b: seq<SettingsEdit>,
                                                 parseDouble: string -> Option<Double>)
    ensures ShowSettingsPageAsWritten(st, a + b, parseDouble)
         == ShowSettingsPageAsWritten(ShowSettingsPageAsWritten(st, a, parseDouble), b, parseDouble)
    decreases |a|
  {
    if |a| > 0 {
      assert (a + b)[0] == a[0] && (a + b)[1..] == a[1..] + b;
      PageAsWrittenComposes(ApplyEditAsWritten(st, a[0], parseDouble).settings, a[1..], b, parseDouble);
    } else {
      assert a + b == b;
    }
  }
}

=== FILE: numbers.dfy ===
/** Numeric building blocks of the PurpleReaction model: an optional value,
    the IEEE-754 view of a `double` that the configuration checks compare
    against, and the bounded decimal parser behind the `--trials` option and
    the trial-count setting. */
module Numbers {

  /** A value that may be absent: a JSON `null`, an empty CSV field, a
      rejected parse. */
  datatype Option<+T> = None | Some(value: T) {
    function GetOr(default: T): T {
      match this
      case Some(v) => v
      case None => default
    }
  }

  /** A `double` as far as ordered comparisons see it: a finite value, an
      infinity, or NaN. The two zeros are not distinguished. */
  datatype Double = Finite(value: real) | Infinite(negative: bool) | NaN

  /** IEEE-754 `a < b`. */
  predicate Less(a: Double, b: Double)
    ensures Less(a, b) ==> !a.NaN? && !b.NaN?
    ensures a.Finite? && b.Finite? ==> (Less(a, b) <==> a.value < b.value)
  {
    match (a, b)
    case (Finite(x), Finite(y)) => x < y
    case (Infinite(na), Finite(_)) => na
    case (Finite(_), Infinite(nb)) => !nb
    case (Infinite(na), Infinite(nb)) => na && !nb
    case _ => false
  }

  /** IEEE-754 `a == b`: NaN equals nothing, itself included. */
  predicate Same(a: Double, b: Double) {
    !a.NaN? && a == b
  }

  /** IEEE-754 `a <= b`. */
  predicate AtMost(a: Double, b: Double) {
    Less(a, b) || Same(a, b)
  }

  /** Every ordered comparison with a NaN operand is false, while two
      non-NaN values are always ordered one way or the other. */
  lemma ComparisonsWithNaN(a: Double, b: Double)
    ensures a.NaN? || b.NaN? ==> !AtMost(a, b) && !AtMost(b, a)
    ensures !a.NaN? && !b.NaN? ==> AtMost(a, b) || AtMost(b, a)
    ensures !(Less(a, b) && Less(b, a))
  {
  }

  // ---------------------------------------------------------------------
  // Decimal integers, as `strtol(value, &end, 10)` reads them
  // ---------------------------------------------------------------------

  /** Smallest and largest integer the trial-count parsers accept. */
  const MinParsedInt: int := 1
  const MaxParsedInt: int := 1000000

  /** The characters C's `isspace` accepts in the "C" locale. */
  predicate IsSpace(c: char) {
    c == ' ' || c == '\t' || c == '\n' || c == '\r' || c == '\U{000B}' || c == '\U{000C}'
  }

  predicate IsDigit(c: char) {
    '0' <= c <= '9'
  }

  predicate AllDigits(s: string) {
    forall i :: 0 <= i < |s| ==> IsDigit(s[i])
  }

  /** The text `strtol` starts converting at: `s` without its leading white space. */
  function SkipSpaces(s: string): (r: string)
    ensures |r| <= |s| && r == s[|s| - |r|..]
    ensures |r| > 0 ==> !IsSpace(r[0])
    ensures forall i :: 0 <= i < |s| - |r| ==> IsSpace(s[i])
  {
    if |s| > 0 && IsSpace(s[0]) then
      var r := SkipSpaces(s[1..]);
      assert s[1..][|s| - 1 - |r|..] == s[|s| - |r|..];
      assert forall i :: 1 <= i < |s| - |r| ==> s[i] == s[1..][i - 1];
      r
    else s
  }

  function DigitValue(c: char): nat
    requires IsDigit(c)
  {
    c as int - '0' as int
  }

  function DigitChar(d: nat): (c: char)
    requires d < 10
    ensures IsDigit(c) && DigitValue(c) == d
  {
    ('0' as int + d) as char
  }

  /** The value of a run of decimal digits, most significant first. */
  function DigitsValue(ds: string): nat
    requires AllDigits(ds)
  {
    if |ds| == 0 then 0 else DigitsValue(ds[..|ds| - 1]) * 10 + DigitValue(ds[|ds| - 1])
  }

  /** The shortest decimal rendering of `n`. */
  function Decimal(n: nat): (s: string)
    ensures |s| > 0 && AllDigits(s)
  {
    if n < 10 then [DigitChar(n)] else Decimal(n / 10) + [DigitChar(n % 10)]
  }

  lemma {:induction false} DecimalValue(n: nat)
    ensures DigitsValue(Decimal(n)) == n
  {
    if n >= 10 {
      var s := Decimal(n);
      assert s[..|s| - 1] == Decimal(n / 10);
      DecimalValue(n / 10);
    }
  }

  predicate AllSpaces(w: string) {
    forall i :: 0 <= i < |w| ==> IsSpace(w[i])
  }

  /** The optional sign `strtol` accepts before the digits. */
  predicate IsSignText(sign: string) {
    sign == "" || sign == "+" || sign == "-"
  }

  /** The value of an optionally signed run of digits. */
  function SignedValue(sign: string, ds: string): int
    requires AllDigits(ds)
  {
    if sign == "-" then 0 - DigitsValue(ds) as int else DigitsValue(ds)
  }

  /** `t` is an optional sign and at least one digit whose signed value is `v`. */
  predicate SignedDigitsForm(t: string, sign: string, ds: string, v: int) {
    t == sign + ds && IsSignText(sign) && |ds| > 0 && AllDigits(ds) && v == SignedValue(sign, ds)
  }

  /** `s` is white space followed by such a signed run of digits. */
  predicate IntegerTextForm(s: string, w: string, sign: string, ds: string, v: int) {
    AllSpaces(w) && s == w + (sign + ds) && SignedDigitsForm(sign + ds, sign, ds, v)
  }

  /** `TryParseIntW` / `TryParseIntNarrow`: `strtol` in base 10 must consume
      the whole text (optional leading white space, an optional sign, at least
      one digit, nothing after the digits) and the value must lie in
      [MinParsedInt, MaxParsedInt]. An out-of-range `long` that `strtol`
      clamps is outside that interval either way. */
  function ParseBoundedInt(s: string): (r: Option<int>)
    ensures r.Some? ==> MinParsedInt <= r.value <= MaxParsedInt
    ensures r.Some? ==> exists w, sign, ds :: IntegerTextForm(s, w, sign, ds, r.value)
  {
    var t := SkipSpaces(s);
    var r := ParseSignedDigits(t);
    if r.None? then None
    else
      assert exists w, sign, ds :: IntegerTextForm(s, w, sign, ds, r.value) by {
        var w := s[..|s| - |t|];
        assert s == w + t;
        assert forall i :: 0 <= i < |w| ==> w[i] == s[i];
        assert AllSpaces(w);
        var sign, ds :| SignedDigitsForm(t, sign, ds, r.value);
        assert IntegerTextForm(s, w, sign, ds, r.value);
      }
      r
  }

  /** The conversion after the white space: an optional sign, then digits
      up to the end of the text, then the range check. */
  function ParseSignedDigits(t: string): (r: Option<int>)
    ensures r.Some? ==> MinParsedInt <= r.value <= MaxParsedInt
    ensures r.Some? ==> exists sign, ds :: SignedDigitsForm(t, sign, ds, r.value)
  {
    var signed := |t| > 0 && (t[0] == '+' || t[0] == '-');
    var body := if signed then t[1..] else t;
    if |body| == 0 || !AllDigits(body) then None
    else
      var v: int := if signed && t[0] == '-' then 0 - DigitsValue(body) as int else DigitsValue(body);
      if v < MinParsedInt || v > MaxParsedInt then None
      else
        var sign := if signed then t[..1] else "";
        assert t == sign + body;
        assert signed ==> sign == [t[0]];
        assert SignedDigitsForm(t, sign, body, v);
        Some(v)
  }

  /** White space followed by a non-space is skipped entirely. */
  lemma {:induction false} SkipLeadingSpaces(w: string, t: string)
    requires AllSpaces(w) && |t| > 0 && !IsSpace(t[0])
    ensures SkipSpaces(w + t) == t
    decreases |w|
  {
    if |w| > 0 {
      assert (w + t)[0] == w[0];
      assert (w + t)[1..] == w[1..] + t;
      SkipLeadingSpaces(w[1..], t);
    } else {
      assert w + t == t;
    }
  }

  /** An optional sign and digits are accepted with their signed value
      whenever it lies in range, and refused otherwise. */
  lemma SignedDigitsAccepted(sign: string, ds: string)
    requires IsSignText(sign) && |ds| > 0 && AllDigits(ds)
    ensures ParseSignedDigits(sign + ds) ==
      if MinParsedInt <= SignedValue(sign, ds) <= MaxParsedInt then Some(SignedValue(sign, ds)) else None
  {
    var t := sign + ds;
    assert IsDigit(ds[0]);
    if sign == "" {
      assert t == ds;
      assert !(t[0] == '+' || t[0] == '-');
    } else {
      assert t[0] == sign[0] && t[1..] == ds;
    }
  }

  /** Conversely, white space, a sign and digits are accepted with their
      signed value whenever it lies in range, and refused otherwise. */
  lemma GrammarTextAccepted(w: string, sign: string, ds: string)
    requires AllSpaces(w) && IsSignText(sign) && |ds| > 0 && AllDigits(ds)
    ensures ParseBoundedInt(w + (sign + ds)) ==
      if MinParsedInt <= SignedValue(sign, ds) <= MaxParsedInt then Some(SignedValue(sign, ds)) else None
  {
    var t := sign + ds;
    assert t[0] == (if sign == "" then ds[0] else sign[0]);
    assert IsDigit(ds[0]);
    SkipLeadingSpaces(w, t);
    SignedDigitsAccepted(sign, ds);
  }

  /** Round trip: every in-range count parses back from its decimal form,
      and every larger one is refused. */
  lemma ParseDecimal(n: nat)
    ensures MinParsedInt <= n <= MaxParsedInt ==> ParseBoundedInt(Decimal(n)) == Some(n)
    ensures n < MinParsedInt || MaxParsedInt < n ==> ParseBoundedInt(Decimal(n)) == None
  {
    DecimalValue(n);
    ParseUnsignedDigits(Decimal(n));
  }

  /** Bare digits are read as their value, then range-checked. */
  lemma ParseUnsignedDigits(s: string)
    requires |s| > 0 && AllDigits(s)
    ensures ParseBoundedInt(s) ==
      if MinParsedInt <= DigitsValue(s) <= MaxParsedInt then Some(DigitsValue(s)) else None
  {
    assert IsDigit(s[0]);
    assert SkipSpaces(s) == s;
  }

  /** A minus sign never yields a count: the accepted range is positive. */
  lemma ParseNegative(n: nat)
    ensures ParseBoundedInt("-" + Decimal(n)) == None
  {
    var s := "-" + Decimal(n);
    assert s[0] == '-' && !IsSpace(s[0]);
    assert SkipSpaces(s) == s;
    assert s[1..] == Decimal(n);
    assert ParseSignedDigits(s) == None;
  }

  /** Leading white space is skipped, as `strtol` does. */
  lemma LeadingSpaceIgnored(s: string)
    ensures ParseBoundedInt(" " + s) == ParseBoundedInt(s)
  {
    assert (" " + s)[1..] == s;
    assert SkipSpaces(" " + s) == SkipSpaces(s);
  }
}

=== FILE: results.dfy ===
/** What happens to the results of a completed run: the valid/false-start
    counts, the average reaction over valid trials, the console summary and
    the JSON and CSV exports. Reactions stay in counter ticks; the exports are
    modelled as the structured records they serialise, with `None` for the
    `null` or empty fields. */
module Results {
  import opened Trial
  import opened Numbers

  // ---------------------------------------------------------------------
  // Counts and average
  // ---------------------------------------------------------------------

  /** Number of trials that ended in a valid response. */
  function ValidCount(rs: seq<TrialResult>): nat
    ensures ValidCount(rs) <= |rs|
  {
    if |rs| == 0 then 0
    else ValidCount(rs[..|rs| - 1]) + (if rs[|rs| - 1].falseStart then 0 else 1)
  }

  /** Number of trials that ended in a false start. */
  function FalseStartCount(rs: seq<TrialResult>): nat {
    if |rs| == 0 then 0
    else FalseStartCount(rs[..|rs| - 1]) + (if rs[|rs| - 1].falseStart then 1 else 0)
  }

  /** Sum of the reactions of the valid trials only. */
  function ValidReactionSum(rs: seq<TrialResult>): int {
    if |rs| == 0 then 0
    else ValidReactionSum(rs[..|rs| - 1]) + (if rs[|rs| - 1].falseStart then 0 else rs[|rs| - 1].reactionTicks)
  }

  /** Every trial is exactly one of valid or false start. */
  lemma {:induction false} CountsPartition(rs: seq<TrialResult>)
    ensures ValidCount(rs) + FalseStartCount(rs) == |rs|
  {
    if |rs| > 0 {
      CountsPartition(rs[..|rs| - 1]);
    }
  }

  /** `ComputeAverageReactionMs`, in ticks: the mean over valid trials, and
      0.0 when there is none. */
  function AverageReaction(rs: seq<TrialResult>): real {
    var n := ValidCount(rs);
    if n == 0 then 0.0 else ValidReactionSum(rs) as real / n as real
  }

  /** The average lies between the smallest and largest valid reaction. */
  lemma AverageWithinBounds(rs: seq<TrialResult>, lo: int, hi: int)
    requires ValidCount(rs) > 0
    requires forall r <- rs :: !r.falseStart ==> lo <= r.reactionTicks <= hi
    ensures lo as real <= AverageReaction(rs) <= hi as real
  {
    SumWithinBounds(rs, lo, hi);
    QuotientWithinBounds(ValidReactionSum(rs), ValidCount(rs), lo, hi);
  }

  lemma QuotientWithinBounds(sum: int, n: int, lo: int, hi: int)
    requires n > 0 && lo * n <= sum <= hi * n
    ensures lo as real <= sum as real / n as real <= hi as real
  {
    var q := sum as real / n as real;
    assert q * n as real == sum as real;
    assert (lo * n) as real == lo as real * n as real;
    assert (hi * n) as real == hi as real * n as real;
  }

  lemma {:induction false} SumWithinBounds(rs: seq<TrialResult>, lo: int, hi: int)
    requires forall r <- rs :: !r.falseStart ==> lo <= r.reactionTicks <= hi
    ensures lo * ValidCount(rs) <= ValidReactionSum(rs) <= hi * ValidCount(rs)
  {
    if |rs| > 0 {
      var init := rs[..|rs| - 1];
      var last := rs[|rs| - 1];
      assert forall r <- init :: r in rs;
      SumWithinBounds(init, lo, hi);
      assert last in rs;
      if !last.falseStart {
        BoundsStep(lo, hi, ValidCount(init), ValidReactionSum(init), last.reactionTicks);
      }
    }
  }

  /** One more term within `[lo, hi]` keeps a sum of `c` such terms within
      `[lo * c, hi * c]`, now for `c + 1`. */
  lemma BoundsStep(lo: int, hi: int, c: int, sum: int, x: int)
    requires lo * c <= sum <= hi * c && lo <= x <= hi
    ensures lo * (c + 1) <= sum + x <= hi * (c + 1)
  {
    assert lo * (c + 1) == lo * c + lo;
    assert hi * (c + 1) == hi * c + hi;
  }

  /** The reaction stored with a false start is never read: results that
      differ only there have the same counts and the same average. */
  lemma {:induction false} AverageIgnoresFalseStarts(rs: seq<TrialResult>, qs: seq<TrialResult>)
    requires |rs| == |qs|
    requires forall i :: 0 <= i < |rs| ==> rs[i].falseStart == qs[i].falseStart
    requires forall i :: 0 <= i < |rs| && !rs[i].falseStart ==> rs[i].reactionTicks == qs[i].reactionTicks
    ensures ValidCount(rs) == ValidCount(qs) && FalseStartCount(rs) == FalseStartCount(qs)
    ensures ValidReactionSum(rs) == ValidReactionSum(qs)
    ensures AverageReaction(rs) == AverageReaction(qs)
  {
    if |rs| > 0 {
      AverageIgnoresFalseStarts(rs[..|rs| - 1], qs[..|qs| - 1]);
    }
  }

  /** The counting pass of `PrintResults` and `ExportResultsJson`. */
  method CountTrials(rs: seq<TrialResult>) returns (valid: nat, falseStarts: nat)
    ensures valid == ValidCount(rs) && falseStarts == FalseStartCount(rs)
    ensures valid + falseStarts == |rs|
  {
    valid, falseStarts := 0, 0;
    var i := 0;
    while i < |rs|
      invariant 0 <= i <= |rs|
      invariant valid == ValidCount(rs[..i]) && falseStarts == FalseStartCount(rs[..i])
      invariant valid + falseStarts == i
    {
      assert rs[..i + 1][..i] == rs[..i];
      if rs[i].falseStart {
        falseStarts := falseStarts + 1;
      } else {
        valid := valid + 1;
      }
      i := i + 1;
    }
    assert rs[..i] == rs;
  }

  /** The accumulation loop of `ComputeAverageReactionMs`: the total and
      the number of the valid reactions. */
  method SumValidReactions(rs: seq<TrialResult>) returns (total: int, count: nat)
    ensures total == ValidReactionSum(rs) && count == ValidCount(rs)
  {
    total, count := 0, 0;
    var i := 0;
    while i < |rs|
      invariant 0 <= i <= |rs|
      invariant total == ValidReactionSum(rs[..i]) && count == ValidCount(rs[..i])
    {
      assert rs[..i + 1][..i] == rs[..i];
      if !rs[i].falseStart {
        total := total + rs[i].reactionTicks;
        count := count + 1;
      }
      i := i + 1;
    }
    assert rs[..i] == rs;
  }

  /** `ComputeAverageReactionMs`: 0.0 without valid trials, else the total
      over the count. */
  method ComputeAverageReaction(rs: seq<TrialResult>) returns (average: real)
    ensures average == AverageReaction(rs)
    ensures ValidCount(rs) == 0 ==> average == 0.0
    ensures ValidCount(rs) > 0 ==> average * ValidCount(rs) as real == ValidReactionSum(rs) as real
  {
    var total, count := SumValidReactions(rs);
    if count == 0 {
      return 0.0;
    }
    average := total as real / count as real;
    QuotientTimesDivisor(total, count);
  }

  lemma QuotientTimesDivisor(sum: int, n: int)
    requires n > 0
    ensures (sum as real / n as real) * n as real == sum as real
  {
  }

  // ---------------------------------------------------------------------
  // Console summary
  // ---------------------------------------------------------------------

  /** One line of the per-trial listing, numbered from 1. */
  datatype ReportLine =
    | FalseStartLine(trial: nat, delaySeconds: real)
    | ReactionLine(trial: nat, delaySeconds: real, reactionTicks: int)

  /** What `PrintResults` shows: the listing, the average line if any, and
      the two counts. */
  datatype Report = Report(lines: seq<ReportLine>, average: Option<real>, validCount: nat, falseStartCount: nat)

  function ReportLineOf(i: nat, r: TrialResult): ReportLine {
    if r.falseStart then FalseStartLine(i + 1, r.delaySeconds)
    else ReactionLine(i + 1, r.delaySeconds, r.reactionTicks)
  }

  /** `PrintResults`. The average line appears only when some trial is valid. */
  function PrintResults(rs: seq<TrialResult>): (r: Report)
    ensures |r.lines| == |rs|
    ensures forall i :: 0 <= i < |rs| ==>
      && r.lines[i].trial == i + 1 && r.lines[i].delaySeconds == rs[i].delaySeconds
      && (r.lines[i].FalseStartLine? <==> rs[i].falseStart)
      && (r.lines[i].ReactionLine? ==> r.lines[i].reactionTicks == rs[i].reactionTicks)
    ensures r.validCount + r.falseStartCount == |rs|
    ensures r.validCount == ValidCount(rs) && r.falseStartCount == FalseStartCount(rs)
    ensures r.average.Some? <==> r.validCount > 0
    ensures r.average.Some? ==> r.average.value == AverageReaction(rs)
  {
    CountsPartition(rs);
    var valid := ValidCount(rs);
    Report(
      seq(|rs|, i requires 0 <= i < |rs| => ReportLineOf(i, rs[i])),
      if valid > 0 then Some(AverageReaction(rs)) else None,
      valid,
      FalseStartCount(rs))
  }

  // ---------------------------------------------------------------------
  // Exports
  // ---------------------------------------------------------------------

  /** One exported trial, as both the JSON `trials` entries and the CSV
      rows carry it: number from 1, delay, reaction (`null` in JSON, an
      empty field in CSV, for a false start) and the false-start flag. */
  datatype ExportedTrial = ExportedTrial(trial: nat, randomDelaySeconds: real, reactionTicks: Option<int>, falseStart: bool)

  /** The document `ExportResultsJson` writes. */
  datatype JsonDoc = JsonDoc(
    trialCount: nat,
    validCount: nat,
    falseStartCount: nat,
    averageReaction: Option<real>,
    trials: seq<ExportedTrial>)

  /** The file `ExportResultsCsv` writes, after its fixed header line. */
  datatype CsvDoc = CsvDoc(rows: seq<ExportedTrial>, average: Option<real>)

  function ExportTrial(i: nat, r: TrialResult): ExportedTrial {
    ExportedTrial(i + 1, r.delaySeconds, if r.falseStart then None else Some(r.reactionTicks), r.falseStart)
  }

  /** The per-trial entries shared by both exports. */
  function ExportTrials(rs: seq<TrialResult>): (ts: seq<ExportedTrial>)
    ensures |ts| == |rs|
    ensures forall i :: 0 <= i < |rs| ==>
      && ts[i].trial == i + 1
      && ts[i].randomDelaySeconds == rs[i].delaySeconds
      && ts[i].falseStart == rs[i].falseStart
      && (ts[i].reactionTicks.None? <==> rs[i].falseStart)
      && (ts[i].reactionTicks.Some? ==> ts[i].reactionTicks.value == rs[i].reactionTicks)
  {
    seq(|rs|, i requires 0 <= i < |rs| => ExportTrial(i, rs[i]))
  }

  /** `ExportResultsJson`: nothing for an empty run; otherwise the counts,
      the average (`null` without valid trials) and the entries. */
  function ExportJson(rs: seq<TrialResult>): (r: Option<JsonDoc>)
    ensures r.None? <==> |rs| == 0
    ensures r.Some? ==>
      && r.value.trialCount == |rs|
      && r.value.validCount == ValidCount(rs)
      && r.value.falseStartCount == FalseStartCount(rs)
      && r.value.validCount + r.value.falseStartCount == r.value.trialCount
      && (r.value.averageReaction.None? <==> r.value.validCount == 0)
      && (r.value.averageReaction.Some? ==> r.value.averageReaction.value == AverageReaction(rs))
      && r.value.trials == ExportTrials(rs)
  {
    if |rs| == 0 then None
    else
      CountsPartition(rs);
      var valid := ValidCount(rs);
      Some(JsonDoc(|rs|, valid, FalseStartCount(rs),
                   if valid > 0 then Some(AverageReaction(rs)) else None,
                   ExportTrials(rs)))
  }

  /** The average cell of the CSV trailer line as the program writes it:
      whatever `ComputeAverageReactionMs` returns, so 0.0 when no trial is
      valid. */
  function CsvAverageAsWritten(rs: seq<TrialResult>): real {
    AverageReaction(rs)
  }

  /** A run of false starts only and a run with one valid 0-tick reaction
      get the same CSV trailer, though only one of them has an average. */
  lemma CsvAverageAsWrittenHidesMissingAverage()
    ensures var noValid := [TrialResult(2.5, 0, true)];
            var oneValid := [TrialResult(2.5, 0, false)];
            && ValidCount(noValid) == 0 && ValidCount(oneValid) == 1
            && CsvAverageAsWritten(noValid) == CsvAverageAsWritten(oneValid) == 0.0
  {
    var noValid := [TrialResult(2.5, 0, true)];
    var oneValid := [TrialResult(2.5, 0, false)];
    assert noValid[..0] == [] && oneValid[..0] == [];
  }

  /** The average cell as the JSON export and the console summary treat it:
      empty when no trial is valid. */
  function CsvAverage(rs: seq<TrialResult>): (a: Option<real>)
    ensures a.None? <==> ValidCount(rs) == 0
    ensures a.Some? ==> a.value == CsvAverageAsWritten(rs)
  {
    if ValidCount(rs) > 0 then Some(AverageReaction(rs)) else None
  }

  /** `ExportResultsCsv`: nothing for an empty run; otherwise one row per
      trial and the trailer's average. */
  function ExportCsv(rs: seq<TrialResult>): (r: Option<CsvDoc>)
    ensures r.None? <==> |rs| == 0
    ensures r.Some? ==> r.value.rows == ExportTrials(rs) && r.value.average == CsvAverage(rs)
  {
    if |rs| == 0 then None else Some(CsvDoc(ExportTrials(rs), CsvAverage(rs)))
  }

  // ---------------------------------------------------------------------
  // Reading exports back
  // ---------------------------------------------------------------------

  /** The results an export describes; a false start reads back with 0
      ticks, which is what the run stores for it. */
  function DecodeTrials(ts: seq<ExportedTrial>): (rs: seq<TrialResult>)
    ensures |rs| == |ts|
  {
    seq(|ts|, i requires 0 <= i < |ts| =>
      TrialResult(ts[i].randomDelaySeconds, ts[i].reactionTicks.GetOr(0), ts[i].falseStart))
  }

  /** The run stores 0 ticks for every false start. */
  predicate FalseStartsCarryZero(rs: seq<TrialResult>) {
    forall r <- rs :: r.falseStart ==> r.reactionTicks == 0
  }

  /** Exporting then reading back reproduces the results exactly, given the
      0 stored for false starts. */
  lemma ExportTrialsRoundTrip(rs: seq<TrialResult>)
    requires FalseStartsCarryZero(rs)
    ensures DecodeTrials(ExportTrials(rs)) == rs
  {
    var back := DecodeTrials(ExportTrials(rs));
    forall i | 0 <= i < |rs|
      ensures back[i] == rs[i]
    {
      assert rs[i] in rs;
    }
  }

  /** Recounting a JSON document reproduces its counts and its average, for
      any results at all. */
  lemma JsonRecount(rs: seq<TrialResult>)
    requires |rs| > 0
    ensures var doc := ExportJson(rs).value;
            var back := DecodeTrials(doc.trials);
            && doc.validCount == ValidCount(back)
            && doc.falseStartCount == FalseStartCount(back)
            && doc.averageReaction == (if ValidCount(back) == 0 then None else Some(AverageReaction(back)))
  {
    var back := DecodeTrials(ExportTrials(rs));
    AverageIgnoresFalseStarts(rs, back);
  }

  /** Recounting a CSV file reproduces the counts and its average cell. */
  lemma CsvRecount(rs: seq<TrialResult>)
    requires |rs| > 0
    ensures var doc := ExportCsv(rs).value;
            var back := DecodeTrials(doc.rows);
            && ValidCount(back) == ValidCount(rs)
            && FalseStartCount(back) == FalseStartCount(rs)
            && doc.average == CsvAverage(back)
  {
    var back := DecodeTrials(ExportTrials(rs));
    AverageIgnoresFalseStarts(rs, back);
  }
}

=== FILE: scenarios.dfy ===
/** Concrete runs, traced pass by pass, with a counter of 1000 ticks per
    second so that one tick is one millisecond. */
module Scenarios {
  import opened Trial
  import opened SessionLoop
  import opened Results
  import opened Numbers

  const Cfg3: RunConfig := RunConfig(3, 2.0, 5.0, 1000)
  const Cfg1: RunConfig := RunConfig(1, 2.0, 5.0, 1000)

  /** A pass with nothing pumped, reading `t` everywhere. */
  function Quiet(t: int): Pass {
    Pass([], t, 2.5, t, t)
  }

  /** A pass that pumps one left-button press at `t`. */
  function Click(t: int): Pass {
    Pass([MouseInput(LeftButtonDown, t)], t, 2.5, t, t)
  }

  /** One pass that keeps the run going, taken off the front of a trace. */
  lemma RunContinues(s: Session, cfg: RunConfig, ps: seq<Pass>)
    requires cfg.qpcFrequency > 0 && |ps| > 0 && Step(s, cfg, ps[0]).Continue?
    ensures Run(s, cfg, ps) == Run(Step(s, cfg, ps[0]).next, cfg, ps[1..])
  {
  }

  /** Three trials with a 2.5 s delay: responses 150 ms and 200 ms after the
      stimulus, then a press before the third stimulus. */
  lemma ThreeTrialExample(prev: Session)
    requires !prev.quitRequested
    ensures var trace := [Quiet(0), Quiet(2500), Click(2650),
                          Quiet(3000), Quiet(5500), Click(5700),
                          Quiet(6000), Click(6100), Quiet(6200)];
            var end := RunTestSession(prev, Cfg3, trace);
            && TraceWellFormed(trace, Cfg3, 0)
            && end.Ended? && end.outcome == Completed
            && end.last.results == [TrialResult(2.5, 150, false), TrialResult(2.5, 200, false), TrialResult(2.5, 0, true)]
            && PrintResults(end.last.results) == Report(
                 [ReactionLine(1, 2.5, 150), ReactionLine(2, 2.5, 200), FalseStartLine(3, 2.5)],
                 Some(175.0), 2, 1)
  {
    var trace := [Quiet(0), Quiet(2500), Click(2650),
                  Quiet(3000), Quiet(5500), Click(5700),
                  Quiet(6000), Click(6100), Quiet(6200)];
    var a := [Quiet(0), Quiet(2500), Click(2650)];
    var b := [Quiet(3000), Quiet(5500), Click(5700)];
    var c := [Quiet(6000), Click(6100), Quiet(6200)];
    assert trace == a + (b + c);
    var s8 := TraceThreeTrials(prev, a, b, c);
    ExampleReport(s8.results);
    WellFormedTail(trace);
  }

  /** The summary of the three-trial example: average 175 over two valid trials. */
  lemma ExampleReport(rs: seq<TrialResult>)
    requires rs == [TrialResult(2.5, 150, false), TrialResult(2.5, 200, false), TrialResult(2.5, 0, true)]
    ensures PrintResults(rs) == Report(
              [ReactionLine(1, 2.5, 150), ReactionLine(2, 2.5, 200), FalseStartLine(3, 2.5)],
              Some(175.0), 2, 1)
  {
    assert rs[..2][..1] == rs[..1] && rs[..1][..0] == [] && rs[..3] == rs;
    assert ValidCount(rs[..1]) == 1 && ValidReactionSum(rs[..1]) == 150;
    assert ValidCount(rs[..2]) == 2 && ValidReactionSum(rs[..2]) == 350;
    assert ValidCount(rs) == 2 && ValidReactionSum(rs) == 350;
    CountsPartition(rs);
    var r := PrintResults(rs);
    assert r.lines == [ReactionLine(1, 2.5, 150), ReactionLine(2, 2.5, 200), FalseStartLine(3, 2.5)];
  }

  lemma WellFormedTail(trace: seq<Pass>)
    requires trace == [Quiet(0), Quiet(2500), Click(2650),
                       Quiet(3000), Quiet(5500), Click(5700),
                       Quiet(6000), Click(6100), Quiet(6200)]
    ensures TraceWellFormed(trace, Cfg3, 0)
  {
    assert TraceWellFormed(trace[9..], Cfg3, 6200);
    assert trace[8..][1..] == trace[9..];
    assert TraceWellFormed(trace[8..], Cfg3, 6100);
    assert trace[7..][1..] == trace[8..];
    assert TraceWellFormed(trace[7..], Cfg3, 6000);
    assert trace[6..][1..] == trace[7..];
    assert TraceWellFormed(trace[6..], Cfg3, 5700);
    assert trace[5..][1..] == trace[6..];
    assert TraceWellFormed(trace[5..], Cfg3, 5500);
    assert trace[4..][1..] == trace[5..];
    assert TraceWellFormed(trace[4..], Cfg3, 3000);
    assert trace[3..][1..] == trace[4..];
    assert TraceWellFormed(trace[3..], Cfg3, 2650);
    assert trace[2..][1..] == trace[3..];
    assert TraceWellFormed(trace[2..], Cfg3, 2500);
    assert trace[1..][1..] == trace[2..];
    assert TraceWellFormed(trace[1..], Cfg3, 0);
  }

  /** A run that is still going after `a` goes on over `b` from where `a`
      left it. */
  lemma {:induction false} RunSplit(s: Session, cfg: RunConfig, a: seq<Pass>, b: seq<Pass>)
    requires cfg.qpcFrequency > 0 && Run(s, cfg, a).Running?
    ensures Run(s, cfg, a + b) == Run(Run(s, cfg, a).current, cfg, b)
    decreases |a|
  {
    if |a| == 0 {
      assert a + b == b;
    } else {
      assert (a + b)[0] == a[0] && (a + b)[1..] == a[1..] + b;
      match Step(s, cfg, a[0])
      case Stop(_, _) =>
      case Continue(next, _) =>
        RunSplit(next, cfg, a[1..], b);
    }
  }

  /** Three passes that all keep the run going. */
  lemma ThreePasses(s0: Session, cfg: RunConfig, ps: seq<Pass>, s1: Session, s2: Session, s3: Session)
    requires cfg.qpcFrequency > 0 && |ps| == 3
    requires Step(s0, cfg, ps[0]).Continue? && Step(s0, cfg, ps[0]).next == s1
    requires Step(s1, cfg, ps[1]).Continue? && Step(s1, cfg, ps[1]).next == s2
    requires Step(s2, cfg, ps[2]).Continue? && Step(s2, cfg, ps[2]).next == s3
    ensures Run(s0, cfg, ps) == Running(s3)
  {
    assert ps[1..][0] == ps[1] && ps[1..][1..][0] == ps[2] && ps[1..][1..][1..] == [];
    RunContinues(s0, cfg, ps);
    RunContinues(s1, cfg, ps[1..]);
    RunContinues(s2, cfg, ps[1..][1..]);
  }

  /** The nine passes of the three-trial example, traced one trial at a time. */
  lemma TraceThreeTrials(prev: Session, a: seq<Pass>, b: seq<Pass>, c: seq<Pass>) returns (s8: Session)
    requires !prev.quitRequested
    requires a == [Quiet(0), Quiet(2500), Click(2650)]
    requires b == [Quiet(3000), Quiet(5500), Click(5700)]
    requires c == [Quiet(6000), Click(6100), Quiet(6200)]
    ensures RunTestSession(prev, Cfg3, a + (b + c)) == Ended(Completed, s8)
    ensures s8.results == [TrialResult(2.5, 150, false), TrialResult(2.5, 200, false), TrialResult(2.5, 0, true)]
  {
    var s0 := ResetSessionState(prev);
    var s3 := FirstTrial(s0, a);
    var s6 := SecondTrial(s3, b);
    s8 := ThirdTrial(s6, c);
    RunSplit3(s0, Cfg3, a, b, c, s3, s6);
  }

  /** Three segments of a trace, the first two keeping the run going. */
  lemma RunSplit3(s0: Session, cfg: RunConfig, a: seq<Pass>, b: seq<Pass>, c: seq<Pass>, s3: Session, s6: Session)
    requires cfg.qpcFrequency > 0
    requires Run(s0, cfg, a) == Running(s3) && Run(s3, cfg, b) == Running(s6)
    ensures Run(s0, cfg, a + (b + c)) == Run(s6, cfg, c)
  {
    RunSplit(s0, cfg, a, b + c);
    RunSplit(s3, cfg, b, c);
  }

  /** Trial 1: dark screen at 0, stimulus at 2500, press at 2650. */
  lemma FirstTrial(s0: Session, ps: seq<Pass>) returns (s3: Session)
    requires s0 == ResetSessionState(s0) && !s0.quitRequested
    requires ps == [Quiet(0), Quiet(2500), Click(2650)]
    ensures Run(s0, Cfg3, ps) == Running(s3)
    ensures s3.results == [TrialResult(2.5, 150, false)] && s3.phase == BeginTrial
    ensures s3.trialIndex == 1 && !s3.quitRequested && !s3.escapePressed
  {
    var s1 := Step(s0, Cfg3, ps[0]).next;
    assert s1.phase == WaitingForStimulus && s1.trialStartQpc == 0;
    assert Clock.DelayElapsed(0, 2500, 1000, 2.5);
    var s2 := Step(s1, Cfg3, ps[1]).next;
    assert s2.phase == WaitingForResponse && s2.stimulusQpc == 2500;
    assert Pump(s2, ps[2].messages).inputQpc == 2650;
    s3 := Step(s2, Cfg3, ps[2]).next;
    ThreePasses(s0, Cfg3, ps, s1, s2, s3);
  }

  /** Trial 2: dark screen at 3000, stimulus at 5500, press at 5700. */
  lemma SecondTrial(s3: Session, ps: seq<Pass>) returns (s6: Session)
    requires s3.phase == BeginTrial && s3.trialIndex == 1 && s3.results == [TrialResult(2.5, 150, false)]
    requires !s3.quitRequested && !s3.escapePressed
    requires ps == [Quiet(3000), Quiet(5500), Click(5700)]
    ensures Run(s3, Cfg3, ps) == Running(s6)
    ensures s6.results == [TrialResult(2.5, 150, false), TrialResult(2.5, 200, false)] && s6.phase == BeginTrial
    ensures s6.trialIndex == 2 && !s6.quitRequested && !s6.escapePressed
  {
    var s4 := Step(s3, Cfg3, ps[0]).next;
    assert s4.trialStartQpc == 3000;
    assert Clock.DelayElapsed(3000, 5500, 1000, 2.5);
    var s5 := Step(s4, Cfg3, ps[1]).next;
    assert s5.phase == WaitingForResponse && s5.stimulusQpc == 5500;
    assert Pump(s5, ps[2].messages).inputQpc == 5700;
    s6 := Step(s5, Cfg3, ps[2]).next;
    ThreePasses(s3, Cfg3, ps, s4, s5, s6);
  }

  /** Trial 3: dark screen at 6000, a press at 6100 before the stimulus is
      due, and the pass at 6200 that sees the run finished. */
  lemma ThirdTrial(s6: Session, ps: seq<Pass>) returns (s8: Session)
    requires s6.phase == BeginTrial && s6.trialIndex == 2
    requires s6.results == [TrialResult(2.5, 150, false), TrialResult(2.5, 200, false)]
    requires !s6.quitRequested && !s6.escapePressed
    requires ps == [Quiet(6000), Click(6100), Quiet(6200)]
    ensures Run(s6, Cfg3, ps) == Ended(Completed, s8)
    ensures s8.results == [TrialResult(2.5, 150, false), TrialResult(2.5, 200, false), TrialResult(2.5, 0, true)]
  {
    var s7 := Step(s6, Cfg3, ps[0]).next;
    assert s7.phase == WaitingForStimulus;
    assert Pump(s7, ps[1].messages).inputWasFalseStart;
    s8 := Step(s7, Cfg3, ps[1]).next;
    assert s8.results == s6.results + [TrialResult(2.5, 0, true)] && s8.phase == Finished;
    assert Step(s8, Cfg3, ps[2]) == Stop(Completed, s8);
    assert ps[1..][0] == ps[1] && ps[1..][1..][0] == ps[2];
    RunContinues(s6, Cfg3, ps);
    RunContinues(s7, Cfg3, ps[1..]);
  }

  /** One trial, cancelled while waiting for the stimulus: nothing is
      recorded and the run is aborted. */
  lemma CancelWhileWaiting(prev: Session)
    requires !prev.quitRequested
    ensures var trace := [Quiet(0), Quiet(1000), Pass([KeyboardInput(VkEscape, false, 1200)], 1200, 2.5, 1200, 1200)];
            RunTestSession(prev, Cfg1, trace).Ended?
            && RunTestSession(prev, Cfg1, trace).outcome == Aborted
            && RunTestSession(prev, Cfg1, trace).last.results == []
  {
    var trace := [Quiet(0), Quiet(1000), Pass([KeyboardInput(VkEscape, false, 1200)], 1200, 2.5, 1200, 1200)];
    var s1 := Step(ResetSessionState(prev), Cfg1, trace[0]).next;
    assert !Clock.DelayElapsed(0, 1000, 1000, 2.5);
    var s2 := Step(s1, Cfg1, trace[1]).next;
    assert s2.phase == WaitingForStimulus && s2.results == [];
    assert Pump(s2, trace[2].messages).escapePressed;
    RunContinues(ResetSessionState(prev), Cfg1, trace);
    RunContinues(s1, Cfg1, trace[1..]);
    assert trace[1..][1..] == trace[2..];
  }

  /** Cancel and quit are checked before the `Finished` phase is seen, so a
      run whose every trial is already recorded can still end as aborted:
      an aborted run may hold the full trial count. */
  lemma AbortAfterLastTrial(prev: Session)
    requires !prev.quitRequested
    ensures var trace := [Quiet(0), Click(100), Pass([KeyboardInput(VkEscape, false, 200)], 200, 2.5, 200, 200)];
            var end := RunTestSession(prev, Cfg1, trace);
            && TraceWellFormed(trace, Cfg1, 0)
            && end.Ended? && end.outcome == Aborted
            && |end.last.results| == Cfg1.trialCount
  {
    var trace := [Quiet(0), Click(100), Pass([KeyboardInput(VkEscape, false, 200)], 200, 2.5, 200, 200)];
    assert trace[1..][1..] == trace[2..] && trace[2..][1..] == [];
    assert TraceWellFormed(trace[2..], Cfg1, 100);
    assert TraceWellFormed(trace[1..], Cfg1, 0);
    var s1 := Step(ResetSessionState(prev), Cfg1, trace[0]).next;
    assert Pump(s1, trace[1].messages).inputWasFalseStart;
    var s2 := Step(s1, Cfg1, trace[1]).next;
    assert s2.phase == Finished && |s2.results| == 1;
    assert Pump(s2, trace[2].messages).escapePressed;
    RunContinues(ResetSessionState(prev), Cfg1, trace);
    RunContinues(s1, Cfg1, trace[1..]);
    assert trace[1..][1..] == trace[2..];
    assert trace[1..][1..][1..] == [];
  }
}

=== FILE: session.dfy ===
/** The body of the run loop as a pure step over one pass, the run as a fold
    of steps over a finite trace of passes, and the safety invariants that
    every step keeps. Each pass pumps the pending window messages, checks
    quit and then cancel, reads the counter and advances the phase. */
module SessionLoop {
  import opened Trial
  import opened Numbers
  import Clock

  /** What one pass of the loop reads from the outside world: the messages
      pumped at its start, the counter reading `now`, the delay the random
      distribution would hand out if the phase is `BeginTrial`, and the
      counter readings just before and after the present if the stimulus is
      shown in this pass. Values the pass does not use are ignored. */
  datatype Pass = Pass(
    messages: seq<WindowMessage>,
    now: int,
    delayDraw: real,
    presentStart: int,
    presentEnd: int)

  /** The outward effect of a pass that keeps the run going. */
  datatype Action =
    | PresentDark
    | PresentBright
    | Wait(how: Clock.Wait)
    | NoAction

  /** A pass either keeps the run going or ends it with an outcome. */
  datatype StepResult = Continue(next: Session, action: Action) | Stop(outcome: SessionOutcome, last: Session)

  /** Record a resolved trial: append its result, advance the index once,
      and finish when the index reaches the trial count. */
  function Resolve(s: Session, r: TrialResult, trialCount: int): (s': Session)
    ensures s'.results == s.results + [r] && s'.trialIndex == s.trialIndex + 1
    ensures s'.phase == Finished <==> s'.trialIndex >= trialCount
    ensures s'.phase != Finished ==> s'.phase == BeginTrial
    ensures s'.(results := s.results, trialIndex := s.trialIndex, phase := s.phase) == s
  {
    var index := s.trialIndex + 1;
    s.(results := s.results + [r], trialIndex := index,
       phase := if index >= trialCount then Finished else BeginTrial)
  }

  /** The `switch (app.phase)` of the run loop, entered after the pump and
      after quit and cancel were found clear. */
  function PhaseStep(s: Session, cfg: RunConfig, p: Pass): (r: StepResult)
    requires cfg.qpcFrequency > 0
    // Only the `Finished` phase ends the run, and it ends it as completed.
    ensures r.Stop? <==> s.phase == Finished
    ensures r.Stop? ==> r == Stop(Completed, s)
    // BeginTrial: fresh latch and timestamps, the drawn delay, a dark screen.
    ensures s.phase == BeginTrial ==>
      && r.Continue? && r.action == PresentDark
      && r.next.phase == WaitingForStimulus
      && !r.next.hasInput && !r.next.inputWasFalseStart
      && r.next.stimulusQpc == 0 && r.next.inputQpc == 0
      && r.next.trialStartQpc == p.now && r.next.scheduledDelaySeconds == p.delayDraw
      && r.next.results == s.results && r.next.trialIndex == s.trialIndex
      && r.next == s.(scheduledDelaySeconds := p.delayDraw, trialStartQpc := p.now, stimulusQpc := 0, inputQpc := 0,
                      hasInput := false, inputWasFalseStart := false, phase := WaitingForStimulus)
    // A latched false start is resolved without ever showing the stimulus.
    ensures s.phase == WaitingForStimulus && s.hasInput && s.inputWasFalseStart ==>
      && r == Continue(Resolve(s, TrialResult(s.scheduledDelaySeconds, 0, true), cfg.trialCount), NoAction)
      && r.next.results == s.results + [TrialResult(s.scheduledDelaySeconds, 0, true)]
      && r.next.trialIndex == s.trialIndex + 1
      && (r.next.phase == Finished <==> r.next.trialIndex >= cfg.trialCount)
    // Otherwise the stimulus wait either shows the stimulus or waits.
    ensures s.phase == WaitingForStimulus && !(s.hasInput && s.inputWasFalseStart) ==>
      r.Continue? && (r.action == PresentBright || r.action.Wait?)
    // The stimulus is shown exactly when no false start is pending and the delay is over.
    ensures (r.Continue? && r.action == PresentBright) <==>
      && s.phase == WaitingForStimulus
      && !(s.hasInput && s.inputWasFalseStart)
      && Clock.DelayElapsed(s.trialStartQpc, p.now, cfg.qpcFrequency, s.scheduledDelaySeconds)
    ensures r.Continue? && r.action == PresentBright ==>
      && r.next == s.(stimulusQpc := Clock.StimulusTimestamp(p.presentStart, p.presentEnd), phase := WaitingForResponse)
      && r.next.results == s.results
    // A latched response is resolved with its tick delta from the stimulus.
    ensures s.phase == WaitingForResponse && s.hasInput && !s.inputWasFalseStart ==>
      && r == Continue(Resolve(s, TrialResult(s.scheduledDelaySeconds, s.inputQpc - s.stimulusQpc, false), cfg.trialCount), NoAction)
      && r.next.results == s.results + [TrialResult(s.scheduledDelaySeconds, s.inputQpc - s.stimulusQpc, false)]
      && r.next.trialIndex == s.trialIndex + 1
      && (r.next.phase == Finished <==> r.next.trialIndex >= cfg.trialCount)
    // Before the deadline the loop sleeps while more than the threshold
    // remains and only yields otherwise; waiting changes nothing.
    ensures (r.Continue? && r.action == Wait(Clock.SleepOneMillisecond)) <==>
      && s.phase == WaitingForStimulus
      && !(s.hasInput && s.inputWasFalseStart)
      && s.scheduledDelaySeconds - Clock.TicksToSeconds(p.now - s.trialStartQpc, cfg.qpcFrequency)
           > Clock.CoarseWaitThresholdSeconds
    ensures r.Continue? && r.action.Wait? ==> r.next == s
    // The response wait without a latched response only yields.
    ensures s.phase == WaitingForResponse && !(s.hasInput && !s.inputWasFalseStart) ==>
      r == Continue(s, Wait(Clock.YieldTimeSlice))
    // A pass that resolves nothing leaves the results and index alone.
    ensures r.Continue? && r.action != NoAction ==>
      r.next.results == s.results && r.next.trialIndex == s.trialIndex
  {
    match s.phase
    case BeginTrial =>
      var next := s.(scheduledDelaySeconds := p.delayDraw, trialStartQpc := p.now,
                     stimulusQpc := 0, inputQpc := 0, hasInput := false, inputWasFalseStart := false,
                     phase := WaitingForStimulus);
      Continue(next, PresentDark)
    case WaitingForStimulus =>
      if s.hasInput && s.inputWasFalseStart then
        Continue(Resolve(s, TrialResult(s.scheduledDelaySeconds, 0, true), cfg.trialCount), NoAction)
      else if Clock.DelayElapsed(s.trialStartQpc, p.now, cfg.qpcFrequency, s.scheduledDelaySeconds) then
        var next := s.(stimulusQpc := Clock.StimulusTimestamp(p.presentStart, p.presentEnd),
                       phase := WaitingForResponse);
        Continue(next, PresentBright)
      else
        var remaining := s.scheduledDelaySeconds
                         - Clock.TicksToSeconds(p.now - s.trialStartQpc, cfg.qpcFrequency);
        Continue(s, Wait(Clock.WaitBeforeDeadline(remaining)))
    case WaitingForResponse =>
      if s.hasInput && !s.inputWasFalseStart then
        var result := TrialResult(s.scheduledDelaySeconds, s.inputQpc - s.stimulusQpc, false);
        Continue(Resolve(s, result, cfg.trialCount), NoAction)
      else
        Continue(s, Wait(Clock.YieldTimeSlice))
    case Finished =>
      Stop(Completed, s)
  }

  /** Within one stimulus wait, yielding is final: once a pass for a trial
      only yields, no later pass of that trial (same start and delay, the
      counter not gone back, whatever the pumps latched) sleeps again. */
  lemma YieldNeverReturnsToSleep(s: Session, t: Session, cfg: RunConfig, p: Pass, q: Pass)
    requires cfg.qpcFrequency > 0 && p.now <= q.now
    requires PhaseStep(s, cfg, p) == Continue(s, Wait(Clock.YieldTimeSlice)) && s.phase == WaitingForStimulus
    requires t.phase == s.phase && t.trialStartQpc == s.trialStartQpc && t.scheduledDelaySeconds == s.scheduledDelaySeconds
    ensures PhaseStep(t, cfg, q) != Continue(t, Wait(Clock.SleepOneMillisecond))
  {
    var f := cfg.qpcFrequency;
    assert !Clock.DelayElapsed(s.trialStartQpc, p.now, f, s.scheduledDelaySeconds);
    Clock.YieldUntilDeadline(s.trialStartQpc, p.now, q.now, f, s.scheduledDelaySeconds);
  }

  /** One pass of the `while (sessionActive)` loop: pump, then quit before
      cancel before any phase logic. */
  function Step(s: Session, cfg: RunConfig, p: Pass): (r: StepResult)
    requires cfg.qpcFrequency > 0
    ensures r.Stop? && r.outcome == QuitRequested <==> Pump(s, p.messages).quitRequested
    ensures r.Stop? && r.outcome == Aborted <==>
      !Pump(s, p.messages).quitRequested && Pump(s, p.messages).escapePressed
    ensures r.Stop? && r.outcome == Completed ==> s.phase == Finished
    ensures r.Stop? ==> r.last == Pump(s, p.messages)
    ensures r.Stop? ==> r.last.results == s.results && r.last.trialIndex == s.trialIndex
    ensures !Pump(s, p.messages).quitRequested && !Pump(s, p.messages).escapePressed ==>
      r == PhaseStep(Pump(s, p.messages), cfg, p)
    ensures r.Continue? ==>
      || r.next.results == s.results
      || (&& |r.next.results| == |s.results| + 1
          && r.next.results[..|s.results|] == s.results
          && r.next.trialIndex == s.trialIndex + 1)
  {
    var s1 := Pump(s, p.messages);
    if s1.quitRequested then Stop(QuitRequested, s1)
    else if s1.escapePressed then Stop(Aborted, s1)
    else
      var r := PhaseStep(s1, cfg, p);
      assert r.Continue? && r.next.results != s1.results ==> r.next.results == s1.results + [r.next.results[|s1.results|]];
      r
  }

  // ---------------------------------------------------------------------
  // Runs
  // ---------------------------------------------------------------------

  /** Where a finite trace of passes leaves a run: still going, or ended. */
  datatype RunState = Running(current: Session) | Ended(outcome: SessionOutcome, last: Session) {
    function State(): Session {
      match this
      case Running(s) => s
      case Ended(_, s) => s
    }
  }

  /** The loop over a finite trace; it stops at the first pass that ends it. */
  function Run(s: Session, cfg: RunConfig, ps: seq<Pass>): (r: RunState)
    requires cfg.qpcFrequency > 0
    decreases |ps|
    ensures s.results <= r.State().results
    ensures |r.State().results| - |s.results| == r.State().trialIndex - s.trialIndex
  {
    if |ps| == 0 then Running(s)
    else
      match Step(s, cfg, ps[0])
      case Stop(o, last) => Ended(o, last)
      case Continue(next, _) => Run(next, cfg, ps[1..])
  }

  /** `RunTestSession`: reset, then loop. */
  function RunTestSession(prev: Session, cfg: RunConfig, ps: seq<Pass>): RunState
    requires cfg.qpcFrequency > 0
  {
    Run(ResetSessionState(prev), cfg, ps)
  }

  // ---------------------------------------------------------------------
  // Invariants
  // ---------------------------------------------------------------------

  /** What a stored result promises: its delay came from the configured
      range, a false start has no reaction, and a valid one is not negative. */
  predicate ResultSound(r: TrialResult, cfg: RunConfig) {
    && cfg.minDelaySeconds <= r.delaySeconds <= cfg.maxDelaySeconds
    && (r.falseStart ==> r.reactionTicks == 0)
    && (!r.falseStart ==> r.reactionTicks >= 0)
  }

  /** The state invariant of a run. */
  predicate Safe(s: Session, cfg: RunConfig) {
    && 0 <= s.trialIndex <= cfg.trialCount
    && |s.results| == s.trialIndex
    && (s.phase == Finished <==> s.trialIndex == cfg.trialCount)
    && (s.phase == WaitingForStimulus && s.hasInput ==> s.inputWasFalseStart)
    && (s.phase == WaitingForResponse && s.hasInput ==> !s.inputWasFalseStart && s.stimulusQpc <= s.inputQpc)
    && (AcceptsPress(s.phase) ==> cfg.minDelaySeconds <= s.scheduledDelaySeconds <= cfg.maxDelaySeconds)
    && (forall i :: 0 <= i < |s.results| ==> ResultSound(s.results[i], cfg))
  }

  /** The invariant together with the clock: a stimulus being waited on was
      stamped no later than `floor`, the last counter reading so far. */
  predicate Inv(s: Session, cfg: RunConfig, floor: int) {
    Safe(s, cfg) && (s.phase == WaitingForResponse ==> s.stimulusQpc <= floor)
  }

  /** A pass read from a monotonic counter that last read `floor`, with a
      delay draw inside the configured range. */
  predicate PassWellFormed(p: Pass, cfg: RunConfig, floor: int) {
    && (forall i :: 0 <= i < |p.messages| ==> StampWithin(p.messages[i], floor, p.now))
    && floor <= p.now <= p.presentStart <= p.presentEnd
    && cfg.minDelaySeconds <= p.delayDraw <= cfg.maxDelaySeconds
  }

  /** A whole trace read from a monotonic counter. */
  predicate TraceWellFormed(ps: seq<Pass>, cfg: RunConfig, floor: int)
    decreases |ps|
  {
    |ps| == 0 || (PassWellFormed(ps[0], cfg, floor) && TraceWellFormed(ps[1..], cfg, ps[0].presentEnd))
  }

  /** A fresh run satisfies the invariant from any counter reading on. */
  lemma ResetEstablishesInv(prev: Session, cfg: RunConfig, floor: int)
    requires cfg.Valid()
    ensures Inv(ResetSessionState(prev), cfg, floor)
  {
  }

  /** Every pass keeps the invariant; a pass that ends the run leaves the
      results as they were, and completes only with every trial recorded. */
  lemma StepKeepsInv(s: Session, cfg: RunConfig, floor: int, p: Pass)
    requires cfg.Valid() && Inv(s, cfg, floor) && PassWellFormed(p, cfg, floor)
    ensures Step(s, cfg, p).Continue? ==> Inv(Step(s, cfg, p).next, cfg, p.presentEnd)
    ensures Step(s, cfg, p).Stop? ==> Safe(Step(s, cfg, p).last, cfg)
    ensures Step(s, cfg, p).Stop? && Step(s, cfg, p).outcome == Completed ==>
      |Step(s, cfg, p).last.results| == cfg.trialCount
  {
    var s1 := Pump(s, p.messages);
    if !s.hasInput {
      PumpStampWithin(s, p.messages, floor, p.now);
    }
    assert Safe(s1, cfg);
    assert s1.phase == WaitingForResponse ==> s1.stimulusQpc <= floor;
    var r := Step(s, cfg, p);
    if r.Continue? {
      var n := r.next;
      if s1.phase == WaitingForStimulus && !(s1.hasInput && s1.inputWasFalseStart) && r.action == PresentBright {
        assert n.stimulusQpc <= p.presentEnd;
      }
      assert forall i :: 0 <= i < |n.results| ==> ResultSound(n.results[i], cfg) by {
        forall i | 0 <= i < |n.results|
          ensures ResultSound(n.results[i], cfg)
        {
          if i < |s1.results| {
            assert n.results[i] == s1.results[i];
          }
        }
      }
    }
  }

  /** The invariant over a whole trace, and what it says about the end. */
  lemma {:induction false} RunKeepsInv(s: Session, cfg: RunConfig, floor: int, ps: seq<Pass>)
    requires cfg.Valid() && Inv(s, cfg, floor) && TraceWellFormed(ps, cfg, floor)
    ensures Safe(Run(s, cfg, ps).State(), cfg)
    ensures Run(s, cfg, ps).Ended? && Run(s, cfg, ps).outcome == Completed ==>
      |Run(s, cfg, ps).last.results| == cfg.trialCount
    decreases |ps|
  {
    if |ps| > 0 {
      StepKeepsInv(s, cfg, floor, ps[0]);
      match Step(s, cfg, ps[0])
      case Stop(_, _) =>
      case Continue(next, _) =>
        RunKeepsInv(next, cfg, ps[0].presentEnd, ps[1..]);
    }
  }

  /** What a run guarantees to whoever reads its results: never more than
      the configured number of trials, all of them when completed, every
      delay from the configured range, no reaction on a false start and a
      non-negative reaction on every valid trial. */
  lemma SessionGuarantees(prev: Session, cfg: RunConfig, floor: int, ps: seq<Pass>)
    requires cfg.Valid() && TraceWellFormed(ps, cfg, floor)
    ensures |RunTestSession(prev, cfg, ps).State().results| <= cfg.trialCount
    ensures RunTestSession(prev, cfg, ps).Ended? && RunTestSession(prev, cfg, ps).outcome == Completed ==>
      |RunTestSession(prev, cfg, ps).last.results| == cfg.trialCount
    ensures forall r <- RunTestSession(prev, cfg, ps).State().results ::
      && cfg.minDelaySeconds <= r.delaySeconds <= cfg.maxDelaySeconds
      && (r.falseStart ==> r.reactionTicks == 0)
      && (!r.falseStart ==> r.reactionTicks >= 0)
  {
    ResetEstablishesInv(prev, cfg, floor);
    RunKeepsInv(ResetSessionState(prev), cfg, floor, ps);
    var rs := RunTestSession(prev, cfg, ps).State().results;
    forall r <- rs
      ensures ResultSound(r, cfg)
    {
      var i :| 0 <= i < |rs| && rs[i] == r;
    }
  }

  /** A quit requested in an earlier run ends the next run at its first
      pass, before any trial is recorded. */
  lemma QuitIsSticky(prev: Session, cfg: RunConfig, ps: seq<Pass>)
    requires cfg.qpcFrequency > 0 && prev.quitRequested && |ps| > 0
    ensures RunTestSession(prev, cfg, ps) == Ended(QuitRequested, Pump(ResetSessionState(prev), ps[0].messages))
    ensures RunTestSession(prev, cfg, ps).last.results == []
  {
  }

  /** The loop as the program runs it, over a finite trace. `outcome` is
      `None` when the trace ran out before the run ended. */
  method RunLoop(prev: Session, cfg: RunConfig, ps: seq<Pass>, ghost floor: int)
    returns (outcome: Option<SessionOutcome>, results: seq<TrialResult>)
    requires cfg.Valid() && TraceWellFormed(ps, cfg, floor)
    ensures outcome.None? <==> RunTestSession(prev, cfg, ps).Running?
    ensures outcome.Some? ==> outcome.value == RunTestSession(prev, cfg, ps).outcome
    ensures results == RunTestSession(prev, cfg, ps).State().results
    ensures |results| <= cfg.trialCount
    ensures outcome == Some(Completed) ==> |results| == cfg.trialCount
    ensures forall r <- results :: !r.falseStart ==> r.reactionTicks >= 0
  {
    SessionGuarantees(prev, cfg, floor, ps);
    var s := ResetSessionState(prev);
    var i := 0;
    outcome := None;
    while i < |ps|
      invariant 0 <= i <= |ps|
      invariant Run(s, cfg, ps[i..]) == RunTestSession(prev, cfg, ps)
      decreases |ps| - i
    {
      assert ps[i..][1..] == ps[i + 1..];
      match Step(s, cfg, ps[i])
      case Stop(o, last) =>
        outcome := Some(o);
        results := last.results;
        return;
      case Continue(next, _) =>
        s := next;
        i := i + 1;
    }
    results := s.results;
  }
}

=== FILE: trial.dfy ===
/** The session state of one test run and everything that touches it
    between two passes of the run loop: the press latch, the decoding of
    window messages into presses, cancel and quit, and the reset that starts
    every run afresh. */
module Trial {

  /** Where the current trial is. */
  datatype Phase = BeginTrial | WaitingForStimulus | WaitingForResponse | Finished

  /** One resolved trial. The reaction is kept as a counter-tick delta; a
      false start carries no reaction and stores 0. */
  datatype TrialResult = TrialResult(delaySeconds: real, reactionTicks: int, falseStart: bool)

  /** How a run ended. */
  datatype SessionOutcome = Completed | Aborted | QuitRequested

  /** The fixed parameters of one run: trial count, delay range in seconds
      (the uniform distribution is rebuilt from it at every reset) and the
      performance-counter frequency in ticks per second. */
  datatype RunConfig = RunConfig(
    trialCount: int,
    minDelaySeconds: real,
    maxDelaySeconds: real,
    qpcFrequency: int)
  {
    /** What start-up and argument checking guarantee before a run. */
    predicate Valid() {
      trialCount >= 1 && 0.0 < minDelaySeconds < maxDelaySeconds && qpcFrequency > 0
    }
  }

  /** The per-run part of the application state. */
  datatype Session = Session(
    trialIndex: int,
    phase: Phase,
    hasInput: bool,
    inputWasFalseStart: bool,
    escapePressed: bool,
    quitRequested: bool,
    trialStartQpc: int,
    stimulusQpc: int,
    inputQpc: int,
    scheduledDelaySeconds: real,
    results: seq<TrialResult>)

  /** The phases in which a press resolves the trial. */
  predicate AcceptsPress(p: Phase) {
    p == WaitingForStimulus || p == WaitingForResponse
  }

  /** `RecordRawInputPress`: latch the first press of a trial, stamped with
      the counter reading `at`, and classify it by the phase it arrives in. */
  function RecordPress(s: Session, at: int): (s': Session)
    ensures s' != s <==> !s.hasInput && AcceptsPress(s.phase)
    ensures s' != s ==> s'.hasInput && s'.inputQpc == at
                        && (s'.inputWasFalseStart <==> s.phase == WaitingForStimulus)
    ensures s'.(hasInput := s.hasInput, inputWasFalseStart := s.inputWasFalseStart,
                inputQpc := s.inputQpc) == s
  {
    if s.phase == WaitingForResponse && !s.hasInput then
      s.(inputQpc := at, hasInput := true, inputWasFalseStart := false)
    else if s.phase == WaitingForStimulus && !s.hasInput then
      s.(inputQpc := at, hasInput := true, inputWasFalseStart := true)
    else
      s
  }

  /** Only the first press of a trial counts: once one is latched, any
      number of later presses leave the state as it is. */
  lemma FirstPressWins(s: Session, first: int, later: int)
    ensures RecordPress(RecordPress(s, first), later) == RecordPress(s, first)
  {
  }

  // ---------------------------------------------------------------------
  // Window messages
  // ---------------------------------------------------------------------

  const VkEscape: int := 0x1B

  /** The raw-input mouse flags for buttons 1 to 5 going down. */
  const LeftButtonDown: bv16 := 0x0001
  const RightButtonDown: bv16 := 0x0004
  const MiddleButtonDown: bv16 := 0x0010
  const Button4Down: bv16 := 0x0040
  const Button5Down: bv16 := 0x0100
  const AnyButtonDown: bv16 := LeftButtonDown | RightButtonDown | MiddleButtonDown | Button4Down | Button5Down

  /** What the window procedure can receive, already decoded from raw input.
      `at` is the counter reading taken if the message latches a press.
      `WindowClosed` stands for `WM_CLOSE`, `WM_DESTROY` and `WM_QUIT`, which
      all raise the quit flag. */
  datatype WindowMessage =
    | KeyboardInput(virtualKey: int, keyUp: bool, at: int)
    | MouseInput(buttonFlags: bv16, at: int)
    | WindowClosed

  /** The effect a message has on the session. */
  datatype InputEvent = PressAt(at: int) | EscapeKey | QuitSignal | Ignored

  /** Key-down of Esc cancels; any other key-down or a button going down is
      a press; key-up and other mouse activity are ignored. */
  function Decode(m: WindowMessage): (e: InputEvent)
    ensures e == QuitSignal <==> m.WindowClosed?
    ensures e == EscapeKey <==> m.KeyboardInput? && !m.keyUp && m.virtualKey == VkEscape
    ensures e.PressAt? ==> !m.WindowClosed? && e.at == m.at
    ensures m.KeyboardInput? && m.keyUp ==> e == Ignored
    ensures m.KeyboardInput? && !m.keyUp && m.virtualKey != VkEscape ==> e == PressAt(m.at)
    ensures m.MouseInput? && m.buttonFlags & AnyButtonDown != 0 ==> e == PressAt(m.at)
    ensures m.MouseInput? && m.buttonFlags & AnyButtonDown == 0 ==> e == Ignored
  {
    match m
    case KeyboardInput(vkey, keyUp, at) =>
      if keyUp then Ignored else if vkey == VkEscape then EscapeKey else PressAt(at)
    case MouseInput(flags, at) =>
      if flags & AnyButtonDown != 0 then PressAt(at) else Ignored
    case WindowClosed => QuitSignal
  }

  /** Everything a message pump may change is the latch and the two flags;
      phase, index, timestamps, delay and results stay as they were. */
  predicate OnlyInputChanged(s: Session, s': Session) {
    s'.(hasInput := s.hasInput, inputWasFalseStart := s.inputWasFalseStart, inputQpc := s.inputQpc,
        escapePressed := s.escapePressed, quitRequested := s.quitRequested) == s
  }

  predicate IsPress(m: WindowMessage) {
    Decode(m).PressAt?
  }

  /** `WindowProc` for one message. */
  function Dispatch(s: Session, m: WindowMessage): (s': Session)
    ensures OnlyInputChanged(s, s')
    ensures s'.quitRequested <==> s.quitRequested || m.WindowClosed?
    ensures s'.escapePressed <==> s.escapePressed || Decode(m) == EscapeKey
    ensures s'.hasInput <==> s.hasInput || (AcceptsPress(s.phase) && IsPress(m))
    ensures s.hasInput ==> s'.inputQpc == s.inputQpc && s'.inputWasFalseStart == s.inputWasFalseStart
    ensures !s.hasInput && s'.hasInput ==>
      s'.inputQpc == m.at && (s'.inputWasFalseStart <==> s.phase == WaitingForStimulus)
    ensures !s'.hasInput ==> s'.inputQpc == s.inputQpc && s'.inputWasFalseStart == s.inputWasFalseStart
  {
    match Decode(m)
    case PressAt(at) => RecordPress(s, at)
    case EscapeKey => s.(escapePressed := true)
    case QuitSignal => s.(quitRequested := true)
    case Ignored => s
  }

  /** `PumpMessages`: dispatch the queued messages in order. */
  function Pump(s: Session, msgs: seq<WindowMessage>): (s': Session)
    decreases |msgs|
    ensures OnlyInputChanged(s, s')
    ensures s'.quitRequested <==> s.quitRequested || exists i :: 0 <= i < |msgs| && msgs[i].WindowClosed?
    ensures s'.escapePressed <==> s.escapePressed || exists i :: 0 <= i < |msgs| && Decode(msgs[i]) == EscapeKey
    ensures s'.hasInput <==> s.hasInput || (AcceptsPress(s.phase) && exists i :: 0 <= i < |msgs| && IsPress(msgs[i]))
    ensures s.hasInput ==> s'.inputQpc == s.inputQpc && s'.inputWasFalseStart == s.inputWasFalseStart
    ensures !s.hasInput && s'.hasInput ==> (s'.inputWasFalseStart <==> s.phase == WaitingForStimulus)
    ensures !s'.hasInput ==> s'.inputQpc == s.inputQpc && s'.inputWasFalseStart == s.inputWasFalseStart
  {
    if |msgs| == 0 then s
    else
      var s1 := Dispatch(s, msgs[0]);
      var s' := Pump(s1, msgs[1..]);
      assert forall i :: 1 <= i < |msgs| ==> msgs[i] == msgs[1..][i - 1];
      assert forall i :: 0 <= i < |msgs| - 1 ==> msgs[1..][i] == msgs[i + 1];
      s'
  }

  /** The counter reading carried by a message, if it has one. */
  predicate StampWithin(m: WindowMessage, lo: int, hi: int) {
    m.WindowClosed? || lo <= m.at <= hi
  }

  /** A press latched during a pump carries one of the pumped readings. */
  lemma {:induction false} PumpStampWithin(s: Session, msgs: seq<WindowMessage>, lo: int, hi: int)
    requires forall i :: 0 <= i < |msgs| ==> StampWithin(msgs[i], lo, hi)
    requires !s.hasInput
    ensures Pump(s, msgs).hasInput ==> lo <= Pump(s, msgs).inputQpc <= hi
    decreases |msgs|
  {
    if |msgs| > 0 {
      var s1 := Dispatch(s, msgs[0]);
      assert StampWithin(msgs[0], lo, hi);
      assert Pump(s, msgs) == Pump(s1, msgs[1..]);
      if s1.hasInput {
        assert s1.inputQpc == msgs[0].at;
      } else {
        assert forall i :: 0 <= i < |msgs[1..]| ==> msgs[1..][i] == msgs[i + 1];
        PumpStampWithin(s1, msgs[1..], lo, hi);
      }
    }
  }

  /** The latch a pump sets carries the reading of the first press message
      of the batch: dispatch is in order and later presses are no-ops. */
  lemma {:induction false} PumpLatchesFirstPress(s: Session, msgs: seq<WindowMessage>)
    requires !s.hasInput && Pump(s, msgs).hasInput
    ensures exists j :: 0 <= j < |msgs| && IsPress(msgs[j]) && (forall k :: 0 <= k < j ==> !IsPress(msgs[k]))
                        && Pump(s, msgs).inputQpc == msgs[j].at
    decreases |msgs|
  {
    var s1 := Dispatch(s, msgs[0]);
    assert Pump(s, msgs) == Pump(s1, msgs[1..]);
    if s1.hasInput {
      assert IsPress(msgs[0]) && Pump(s, msgs).inputQpc == msgs[0].at;
    } else {
      assert !IsPress(msgs[0]);
      PumpLatchesFirstPress(s1, msgs[1..]);
      var j :| 0 <= j < |msgs[1..]| && IsPress(msgs[1..][j]) && (forall k :: 0 <= k < j ==> !IsPress(msgs[1..][k]))
               && Pump(s1, msgs[1..]).inputQpc == msgs[1..][j].at;
      assert msgs[j + 1] == msgs[1..][j];
      assert forall k :: 1 <= k < j + 1 ==> msgs[k] == msgs[1..][k - 1];
    }
  }

  // ---------------------------------------------------------------------
  // Reset
  // ---------------------------------------------------------------------

  /** `ResetSessionState`: clear results, index, phase, latch, cancel flag,
      timestamps and delay. The quit flag survives, so a quit requested
      earlier ends the next run at once. */
  function ResetSessionState(s: Session): (r: Session)
    ensures r.results == [] && r.trialIndex == 0 && r.phase == BeginTrial
    ensures !r.hasInput && !r.inputWasFalseStart && !r.escapePressed
    ensures r.quitRequested == s.quitRequested
    ensures r.trialStartQpc == 0 && r.stimulusQpc == 0 && r.inputQpc == 0 && r.scheduledDelaySeconds == 0.0
  {
    Session(
      trialIndex := 0,
      phase := BeginTrial,
      hasInput := false,
      inputWasFalseStart := false,
      escapePressed := false,
      quitRequested := s.quitRequested,
      trialStartQpc := 0,
      stimulusQpc := 0,
      inputQpc := 0,
      scheduledDelaySeconds := 0.0,
      results := [])
  }

  /** Nothing of a previous run leaks into the next one except the quit
      flag: two states that agree on it reset to the same state. */
  lemma ResetForgetsPreviousRun(a: Session, b: Session)
    requires a.quitRequested == b.quitRequested
    ensures ResetSessionState(a) == ResetSessionState(b)
  {
  }
}
